=== FILE: README.md ===
# Missions CLI authentication core in Dafny

This project models the authentication and command-guard core of the
Missions command-line client:

- the OAuth 2.0 device-flow token poller, which follows the device access
  token request of RFC 8628 (grant type of section 3.4, error codes of
  section 3.5);
- the credential storage, which writes to the OS keyring or, when the keyring
  is unavailable, to an encrypted fallback file holding one key→value map;
- the token lifecycle on top of that storage: saving a token response as
  three keys, with compensating deletes when a write fails; the expiry check
  with its five-minute buffer; the refresh stub; reading the current access
  token;
- the tagged authentication errors and how they render as text;
- the login sequence, which requests a device code, polls for the token and
  saves it;
- the command guard: a substring blacklist for commands, fail-fast execution
  of a command list, and the classification of the user's yes/no answer.

Everything is pure functions over immutable datatypes. The only method is
`ExecuteCommand`, which has a loop. The outside world enters as explicit
oracle inputs:

- each server reply in the poller is a `Round`: the seconds the clock
  advances, plus the reply;
- each keyring or file write and delete takes a `fault`: `None` when the
  backend accepts it, `Some(reason)` when it fails;
- each keyring read takes a `fault` too: `Some(reason)` is a keyring that
  fails with an error of its own instead of answering with the value or
  not-found;
- the device-code request's result is a parameter of `Login`;
- each shell run is a `ShellRun`;
- each line read at the prompt is a `ReadLine`.

Clock readings are integer seconds. The program's clock has nanoseconds,
and the RFC 3339 stamp `SaveTokens` writes drops the fraction of a second,
while `IsTokenExpired` compares at full precision. The model's `savedAt`
therefore stands for the save instant rounded down to the second, which is
what the stamp records, and a query time `now` stands for the query instant
rounded up. With that reading the expiry verdicts are exactly the
program's: for a whole-second stamp `k`, an instant `x` satisfies `x > k`
iff its ceiling does.

Modules and files:

- `wrappers.dfy`: `Option` and `Result`.
- `errors.dfy`: `AuthErrors`.
- `timestamps.dfy`: `Timestamps`, the textual expiry stamp.
- `secure_storage.dfy`: `SecureStorage`, with both backends and the storage
  mode.
- `token_manager.dfy`: `TokenManager`.
- `token_poller.dfy`: `TokenPoller`.
- `login.dfy`: `Login`.
- `executor.dfy`: `Executor`.

The comment at internal/auth/token_manager.go:393 says a token is to be
considered expired `tokenExpiryBufferMinutes` minutes before its real
expiry. The test on the next line asks whether `now + 5min` is strictly
`After` the expiry. The model follows the test: at exactly `expiry - 300`
seconds the token is still valid, and it is expired at any later instant,
which over whole-second readings is from the next second on
(`TokenManager.SavedTokenExpiry`). Here `expiry` is the stamp as written,
that is the save instant truncated to the second plus the lifetime.

The model keeps two deviations from RFC 8628. On `slow_down`, section 3.5
adds 5 seconds to the polling interval; the code doubles the interval
instead (`TokenPoller.WaitingState`, `TokenPoller.SlowDownOnlyIsGeometric`).
When the device authorization response omits `interval`, section 3.2 has
the client poll every 5 seconds; the code decodes the missing field as 0
(internal/auth/device_code.go:20), and `time.NewTicker` panics on a zero
duration (internal/auth/token_poller.go:24). The model gives this as
`PollForToken`'s `Panicked` outcome (`TokenPoller.OmittedIntervalPanics`).

The compensating deletes in `SaveTokens` remove the keys the call wrote;
they do not restore what those keys held before. Saving over a store with
no session therefore leaves the three token keys all present or all absent
(`TokenManager.NoneStaysNone`). Saving over an existing session, a refused
refresh-token write deletes the old access token and keeps the old refresh
token and expiry, so the set is broken
(`TokenManager.PartialSetAfterFailedResave`).

## Model

| member | source | states |
|---|---|---|
| AuthErrors.CodeNamesDistinct | internal/auth/errors.go:20-25 | The four error-code constants are pairwise distinct. |
| AuthErrors.CodePrefixesExclusive | internal/auth/errors.go:20-25 | No code's `CODE: ` prefix is a prefix of another code's, so a rendered error names exactly one code. |
| AuthErrors.RenderNamesCode | internal/auth/errors.go:12-17 | `Error()` text starts with the error's own code followed by `: `, and parsing that prefix gives back the code, with or without a cause. |
| AuthErrors.RenderDeterminesCode | internal/auth/errors.go:12-17 | Two errors whose rendered texts are equal have the same code. |
| AuthErrors.RenderWithCause | internal/auth/errors.go:12-17 | With a cause, the text is the cause-free text `Code: Message` followed by ` (underlying error: <cause>)`. |
| AuthErrors.NewError | internal/auth/errors.go:28-61 | A constructed error has the given code and that code's fixed message, renders with both as a prefix, and keeps the cause it was given. |
| AuthErrors.NewDeviceCodeError | internal/auth/errors.go:27-34 | Renders with code `DEVICE_CODE_REQUEST_ERROR`; the message is `Failed to request device code`; the cause is unchanged. |
| AuthErrors.NewTokenPollingError | internal/auth/errors.go:36-43 | Renders with code `ERROR_AUTH_POLLING`; the message is `Failed to poll for authentication token`; the cause is unchanged. |
| AuthErrors.NewTokenSavingError | internal/auth/errors.go:45-52 | Renders with code `SAVE_TOKEN_ERROR`; the message is `Failed to save authentication tokens`; the cause is unchanged. |
| AuthErrors.NewTokenRefreshError | internal/auth/errors.go:54-61 | Renders with code `TOKEN_REFRESH_ERROR`; the message is `Failed to refresh authentication token`; the cause is unchanged. |
| Timestamps.ParseFormat | internal/auth/token_manager.go:361-388 | Every expiry stamp written by the save parses back to the same instant. |
| SecureStorage.Encode | internal/auth/token_manager.go:286-303 | What the file codec writes for a map decodes back to that map. |
| SecureStorage.LoadStore | internal/auth/token_manager.go:251-283 | A missing file loads as the empty map. A read error is returned as is. A store whose data is null loads as the empty map; a store with a map loads as that map. An undecodable store is a failure. |
| SecureStorage.SaveStore | internal/auth/token_manager.go:286-304 | The write error is returned. After a successful write the file loads as the map written. A failed write leaves everything as it was. |
| SecureStorage.NewSecureStorage | internal/auth/token_manager.go:53-66 | The keyring is used exactly when the probe finds it available; otherwise the storage presents the fallback file's contents. |
| SecureStorage.Set | internal/auth/token_manager.go:146-154 | With `setFallback` (lines 307-315): succeeds iff the store loads and the backend accepts; then the presented map is the old map with `key := value`; a failure changes nothing and passes a load error through; the mode and the other backend never change. |
| SecureStorage.Get | internal/auth/token_manager.go:157-165 | With `getFallback` (lines 318-330): succeeds iff the store loads, holds the key and, in keyring mode, the keyring answers without an error of its own; then it returns the value. A keyring read error or a load error is passed through. An absent key gives the backend's not-found error. |
| SecureStorage.Delete | internal/auth/token_manager.go:168-176 | With `deleteFallback` (lines 333-341): on success the presented map loses exactly `key`. The keyring refuses an absent key; the fallback accepts it. A failure changes nothing. |
| SecureStorage.SetThenGet | internal/auth/token_manager.go:307-330 | `Set(k, v)` then `Get(k)` returns `v`, when the keyring answers the read normally. |
| SecureStorage.SetKeepsOtherKeys | internal/auth/token_manager.go:307-330 | `Set(k, v)` leaves `Get` of every other key unchanged, whether or not the write succeeds and whatever the keyring answers to the read. |
| SecureStorage.DeleteThenGet | internal/auth/token_manager.go:318-341 | After a successful `Delete(k)`, `Get(k)` fails with not-found, when the keyring answers the read normally. |
| SecureStorage.DeleteIdempotent | internal/auth/token_manager.go:333-341 | Deleting twice presents the same map as deleting once. The fallback store accepts the second delete. |
| SecureStorage.LoadFailureAborts | internal/auth/token_manager.go:307-341 | An unloadable fallback file makes `Set`, `Get` and `Delete` fail with the load error, and nothing is written. |
| TokenManager.SaveTokens | internal/auth/token_manager.go:343-376 | Succeeds iff the store loads and all three writes are accepted. On success the presented map is the old map with the access token, the refresh token and `now + expiresIn` added. Every failure carries code `SAVE_TOKEN_ERROR`. The fallback advisory is shown iff the save succeeds in fallback mode. |
| TokenManager.RollbackAfterRefreshFailure | internal/auth/token_manager.go:352-357 | A failed refresh-token write, followed by a successful delete, leaves the old map without `access_token`. |
| TokenManager.RollbackAfterExpiryFailure | internal/auth/token_manager.go:360-369 | A failed expiry write, followed by successful deletes, leaves the old map without `access_token` and `refresh_token`. |
| TokenManager.SaveTokensRollback | internal/auth/token_manager.go:347-369 | A failed save whose compensating deletes succeed leaves the old map minus exactly the keys this call had already written. |
| TokenManager.SaveTokensAllOrNothing | internal/auth/token_manager.go:343-369 | After such a failed save, no value written by the call survives: each token key is absent or holds its value from before. |
| TokenManager.NoneStaysNone | internal/auth/token_manager.go:343-369 | From a store holding none of the three token keys, a save whose compensating deletes succeed leaves all three keys or none. |
| TokenManager.PartialSetAfterFailedResave | internal/auth/token_manager.go:352-356 | From a store holding all three keys, a refused refresh-token write with a successful delete leaves no access token but the old refresh token and expiry, so the set is no longer whole. |
| TokenManager.SaveTokensDeleteFailureMasks | internal/auth/token_manager.go:352-356 | When the compensating delete fails, its error is reported and the original write error is lost. |
| TokenManager.IsTokenExpired | internal/auth/token_manager.go:379-395 | An error comes exactly when the expiry cannot be read (missing, or a keyring or load error) or is unparsable, and then the token counts as expired; a read error is returned as is. Otherwise it is expired iff `now + 300` is strictly after the stored expiry. |
| TokenManager.SavedTokenExpiry | internal/auth/token_manager.go:360-394 | A token saved at `t` with lifetime `e` is unexpired up to and including `t + e - 300`, expired after that, and the check reports no error when the keyring answers the read normally. |
| TokenManager.RefreshToken | internal/auth/token_manager.go:413-422 | Always fails with code `TOKEN_REFRESH_ERROR` and the message `Failed to refresh authentication token`. The cause says `no refresh token found` when the refresh token cannot be read (absent, or a keyring or load error) and `session expired` otherwise. Storage is never changed. |
| TokenManager.GetCurrentTokenAsWritten | internal/auth/token_manager.go:397-411 | The code as written: an expiry-check error is returned with an empty token, and a non-empty token with no error is the stored access token. |
| TokenManager.AsWrittenExpiredGivesNoError | internal/auth/token_manager.go:403-406 | As written, a readable expiry inside the buffer yields an empty token together with no error. |
| TokenManager.AsWrittenExpiredExample | internal/auth/token_manager.go:403-406 | Concrete instance: expiry 1000 queried at 800 returns `("", nil)`. |
| TokenManager.GetCurrentToken | internal/auth/token_manager.go:397-411 | Corrected: no error iff the token is unexpired and an access token can be read, and then the token returned is that access token. An error always comes with an empty token. An expiry-check error is returned as is; an expired token reports the refresh error. |
| TokenManager.CorrectionIsLocal | internal/auth/token_manager.go:397-411 | The corrected and as-written versions agree everywhere except on a readable expiry inside the buffer. |
| TokenManager.SaveThenGetCurrentToken | internal/auth/token_manager.go:343-411 | After a successful save, until `t + e - 300` the current token is the access token just saved, in both versions and under either backend, when the keyring answers the reads normally. |
| TokenPoller.Start | internal/auth/token_poller.go:21-22 | The deadline is the start time plus the device code's lifetime; the interval is the server's. |
| TokenPoller.Exchange | internal/auth/token_poller.go:46-85 | A 200 reply with a decodable body yields its token. `authorization_pending` continues with the interval unchanged. `slow_down` continues with the interval doubled. Both keep the deadline. Every other reply stops with code `ERROR_AUTH_POLLING` and a cause other than the time-out's. |
| TokenPoller.Run | internal/auth/token_poller.go:27-87 | It never sends more requests than there are rounds. Past the deadline it stops at once with the time-out error and no request. A loop still waiting has used every round and kept the deadline. Every failure has code `ERROR_AUTH_POLLING`. |
| TokenPoller.PollForToken | internal/auth/token_poller.go:14-31 | The ticker panics, with no request sent, exactly when the interval's int64 nanosecond duration is not positive: a non-positive interval, or one above `MaxTickSeconds` that wraps. Intervals from 1 to `MaxTickSeconds` never panic. Failures carry code `ERROR_AUTH_POLLING`. The deadline stays `start + expiresIn`. |
| TokenPoller.TimesOutOnlyPastDeadline | internal/auth/token_poller.go:27-30 | A time-out means the clock, advanced by the rounds used, is strictly past the deadline. |
| TokenPoller.RequestsBeforeDeadline | internal/auth/token_poller.go:27-31 | Each request is sent after a deadline check that passed: before the `i`-th request, the clock advanced by the earlier rounds is not past the deadline. |
| TokenPoller.OmittedIntervalPanics | internal/auth/token_poller.go:22-24 | An interval of 0, which is what a response without `interval` decodes to, makes the ticker panic before any request. |
| TokenPoller.RunWaitsBeforeLast | internal/auth/token_poller.go:27-77 | Every request but the last one sent got a pending or slow-down reply; all of them did when the loop is still waiting or timed out. |
| TokenPoller.RunGrantsLastReply | internal/auth/token_poller.go:56-61 | A granted token is the one in the last reply: a 200 whose body decodes to that token. |
| TokenPoller.RunFailsOnLastReply | internal/auth/token_poller.go:38-85 | Every error other than the time-out comes from the last reply, which was neither pending, slow-down, nor a decodable 200. |
| TokenPoller.WaitingState | internal/auth/token_poller.go:21-77 | While polling continues, the deadline is fixed and the clock has advanced by every round's time. The interval is `initial * 2^k` after `k` `slow_down` replies. |
| TokenPoller.SlowDownOnlyIsGeometric | internal/auth/token_poller.go:73-77 | Under `slow_down` replies only, the loop is either waiting with the interval doubled once per reply or timed out. |
| TokenPoller.PollsBounded | internal/auth/token_poller.go:21-31 | When every round takes at least `pace` seconds, `n` requests fit before the deadline: `(n - 1) * pace <= deadline - now`. |
| TokenPoller.PollingEnds | internal/auth/token_poller.go:27-31 | Given more paced rounds than fit before the deadline, the loop ends before using them all. |
| TokenPoller.PollForTokenBounded | internal/auth/token_poller.go:21-31 | When rounds are paced at the initial interval, at most `expiresIn / interval + 1` requests are sent. |
| TokenPoller.PendingForeverTimesOut | internal/auth/token_poller.go:27-77 | A server that only answers pending or slow-down, given enough paced rounds, ends in the time-out error. |
| TokenPoller.KeepsPolling | internal/auth/token_poller.go:69-77 | Under pending and slow-down replies only, the loop is waiting or timed out, never granted or failed otherwise. |
| TokenPoller.PendingThenGrantedScenario | internal/auth/token_poller.go:56-72 | Three pending replies and then a token: the token is returned after four requests. |
| TokenPoller.SlowDownScenario | internal/auth/token_poller.go:73-77 | One `slow_down` at interval 2 leaves the loop waiting with the state's interval 4 and the deadline unchanged. |
| Login.Login | internal/auth/login.go:21-44 | A failed device-code request gives its fixed message, with no poll and no write. A failed poll gives its message and writes nothing. Errors are fresh plain messages. Storage changes only after a granted token. After a granted token, the storage is the save's result, and the login succeeds if the save does and otherwise fails with the saving message. It crashes exactly when the ticker panics, and is still polling exactly when the rounds run out. It uses exactly the poller's rounds. Success iff all three stages succeed. |
| Login.LoginStoresTokens | internal/auth/login.go:39-44 | After a successful login, both tokens are stored with the granted values and the expiry is readable. The session is unexpired until `t + e - 300`, and within it the current token is the one granted (keyring reads answered normally). |
| Login.EarlyFailuresWriteNothing | internal/auth/login.go:22-37 | A failed device-code request or poll leaves storage untouched; the device-code failure sends no token request. |
| Executor.ContainsFrom | internal/commands/executor.go:25 | The search from index `i` is true iff the pattern occurs at some index `j >= i`. |
| Executor.ValidateFrom | internal/commands/executor.go:23-30 | Rejects iff some pattern from position `k` on is a substring of the command; the error is the fixed message. |
| Executor.ValidateCommand | internal/commands/executor.go:23-30 | Rejects iff some configured pattern is a substring of the command; the error is the fixed message. |
| Executor.MissingCharacter | internal/commands/executor.go:25 | A pattern containing a character that the command lacks does not occur in it. |
| Executor.RejectsSudo | internal/commands/executor.go:23-30 | `sudo ls` is refused under the configured patterns. |
| Executor.RejectsEmbeddedRemoval | internal/commands/executor.go:23-30 | `cd / && rm -rf tmp` is refused. |
| Executor.AcceptsListing | internal/commands/executor.go:23-30 | `ls -la` is accepted. |
| Executor.ExecuteCommand | internal/commands/executor.go:32-57 | Only accepted commands run, in order, up to the first refused or failing one. If all pass, the outputs of all commands come back in order. A refusal returns nil results and runs nothing more. A failure returns exactly the outputs of the commands before it. |
| Executor.LowerChar | internal/commands/executor.go:77 | The result is never one of the capitals mapped. ASCII capitals move 32 code points down; `İ` becomes `i`. Other characters are unchanged. Whether a character is white space is preserved. |
| Executor.ToLower | internal/commands/executor.go:77 | Maps each character by `LowerChar` and keeps the length. |
| Executor.TrimLeftFunc | internal/commands/executor.go:77 | The result is a suffix of the input that does not start with a trimmed character; everything dropped was trimmed characters. |
| Executor.TrimRightFunc | internal/commands/executor.go:77 | The result is a prefix of the input that does not end with a trimmed character; everything dropped was trimmed characters. |
| Executor.TrimFunc | internal/commands/executor.go:77 | The result starts and ends with a kept character, and is a slice of the input whose outside is all trimmed characters. |
| Executor.TrimSpace | internal/commands/executor.go:77 | The result starts and ends with a non-space character, and is a slice of the input framed by white space. |
| Executor.TrimSpaceOfTrimmed | internal/commands/executor.go:77 | A string with no white space at either end is left as it is. |
| Executor.ToLowerIdempotent | internal/commands/executor.go:77 | Lower-casing twice is lower-casing once. |
| Executor.NormalizeIdempotent | internal/commands/executor.go:77 | Normalising (trim, then lower-case) twice is normalising once. |
| Executor.ClassifyAnswer | internal/commands/executor.go:76-86 | Yes exactly for a normalised answer in {"sí", "si", "s", ""}; no exactly for one in {"no", "n"}; anything else asks again. |
| Executor.ClassifyIgnoresCaseAndPadding | internal/commands/executor.go:76-86 | Surrounding white space and letter case do not change the classification. |
| Executor.AccentedCapitalIsYes | internal/commands/executor.go:77-81 | `Sí` counts as yes. |
| Executor.DottedCapitalIsYes | internal/commands/executor.go:77-81 | `Sİ` lowers to `si` and counts as yes. |
| Executor.PaddedRefusalIsNo | internal/commands/executor.go:77-83 | ` No\t` counts as no. |
| Executor.EnglishAnswerAsksAgain | internal/commands/executor.go:77-86 | `yes` is not understood, and the prompt repeats. |
| Executor.ConfirmExecution | internal/commands/executor.go:67-87 | No answer yet iff every line read so far asks again. Otherwise the result is true or false according to the first decisive line, and every earlier line asked again. |

## Left out

- Encryption and encoding of the fallback file (AES-GCM, the SHA-256 key, base64, JSON). They are foreign library code, abstracted to a `Blob` that decodes to a map or fails.
- The keyring probe, the keyring calls and the `MISSIONS_CLI_FORCE_FILE_STORAGE` switch. The probe's answer, each write's and delete's success or failure, and each keyring read's own error are inputs. The fallback file's read failures come from the `File` value.
- `getFallbackPath`, which depends on the operating system, environment variables and the file system.
- The security advisory's printing and all other terminal output. Only whether the advisory is shown is modelled (`Saved.advisory`).
- The storage singleton and its mutex. Every operation is a single sequential call.
- Real time and `time.Ticker`. The clock is integer seconds, and each round carries the seconds it takes.
- JSON marshalling of the token request, which cannot fail for a string map, and the HTTP plumbing. Each reply is an oracle value.
- `internal/auth/device_code.go` is not part of this model. Its result is the `deviceReply` parameter of `Login.Login`.
- Actual shell execution. Each command's outcome is a `ShellRun` input.
- The cobra command wiring, configuration lookups other than the dangerous-pattern list, the DTO package and the test server.
- TokenPoller.Exchange: does not model Go's 64-bit `time.Duration` overflow when the interval is doubled repeatedly (where `ticker.Reset` would panic on a wrapped duration), because the state's interval is an unbounded number of seconds.
- TokenPoller.Start: the deadline is `start + expiresIn` in unbounded seconds. Go computes `time.Duration(expiresIn) * time.Second` in int64 nanoseconds, which wraps for `expiresIn` above 9223372036 (for example 10000000000) and then puts the deadline in the past; that case is not modelled.
- TokenPoller.SlowDownScenario: the interval changes only the state; the seconds between requests are the rounds' `elapsed` input, so the model does not show that the next request waits 4 seconds.
- TokenManager.SaveTokens: the stored expiry is `now + expiresIn` in unbounded seconds; Go's int64 nanosecond duration wraps for `expiresIn` above 9223372036 and would store an expiry already past, which is not modelled.
- TokenPoller.Run: polling ends when the rounds run out (`Waiting`); the unbounded Go loop is covered by the termination lemmas under a pace assumption instead.
- Timestamps.ParseFormat: the expiry stamp is integer seconds written as signed decimal, not RFC 3339 calendar text. It round-trips whole seconds exactly; the sub-second part of the program's save instant, which RFC 3339 formatting drops, is not represented at all.
- TokenManager.SavedTokenExpiry: stated over whole-second clock readings. In the program a token saved at a fractional instant is expired from just after the truncated stamp minus 300 seconds, which the lemma matches only with `savedAt` rounded down and `now` rounded up.
- TokenManager.SaveThenGetCurrentToken: the same whole-second reading of `savedAt` and `now` as `TokenManager.SavedTokenExpiry`.
- Login.LoginStoresTokens: the same whole-second reading of `savedAt` and `now` as `TokenManager.SavedTokenExpiry`.
- SecureStorage.Get: the keyring's not-found error is taken to be go-keyring's `secret not found in keyring`, which comes from the library and not from this source.
- SecureStorage.SaveStore: a failed write leaves the file as it was; partially written files are not modelled.
- Executor.LowerChar: maps only the ASCII and Latin-1 capitals and `İ` (U+0130). Go's `strings.ToLower` covers all of Unicode, and full case tables are out of scope. No other capital lowers into the letters of the accepted answers, under Unicode's simple lower-case mapping, so the verdict of `ClassifyAnswer` is unaffected; only the lower-cased text of other capitals differs.
- Executor.ConfirmExecution: each read line is given as already tokenised by `fmt.Scanln`. Scanln's own rules (such as failing on an empty line) are not modelled, so whether a bare Enter reaches the `""` branch is left to the `ReadLine` input.

## Findings

| source | as written | input that shows it | evidently intended | confidence | as-written member | corrected member |
|---|---|---|---|---|---|---|
| internal/auth/token_manager.go:403-406 | when the token is expired and `RefreshToken` fails, `GetCurrentToken` returns `("", err)`, and `err` is the nil error of the expiry check | stored expiry 1000 with an access token present, queried at time 800 (inside the 300-second buffer): the result is an empty token with a nil error | return the refresh error, so that a nil error always comes with a usable access token | not executed | TokenManager.GetCurrentTokenAsWritten | TokenManager.GetCurrentToken |

=== FILE: errors.dfy ===
/** The authentication error kinds (internal/auth/errors.go): a closed set of
    four codes, each paired with a fixed human message, an optional underlying
    cause, and the text rendering `Code: Message` with the cause appended. */
module AuthErrors {
  import opened Wrappers

  datatype ErrorCode = DeviceCodeRequest | AuthPolling | SaveToken | TokenRefresh

  /** The string constant each code is rendered as. */
  function CodeName(c: ErrorCode): string
  {
    match c
    case DeviceCodeRequest => "DEVICE_CODE_REQUEST_ERROR"
    case AuthPolling => "ERROR_AUTH_POLLING"
    case SaveToken => "SAVE_TOKEN_ERROR"
    case TokenRefresh => "TOKEN_REFRESH_ERROR"
  }

  /** The fixed message each constructor attaches to its code. */
  function MessageFor(c: ErrorCode): string
  {
    match c
    case DeviceCodeRequest => "Failed to request device code"
    case AuthPolling => "Failed to poll for authentication token"
    case SaveToken => "Failed to save authentication tokens"
    case TokenRefresh => "Failed to refresh authentication token"
  }

  /** An authentication error. The cause is the rendered text of the wrapped
      Go error, or None when the wrapped error is nil. */
  datatype AuthenticationError = AuthenticationError(code: ErrorCode, message: string, cause: Option<string>)

  /** Any Go `error` value crossing a boundary of the model: either a plain
      error carrying only its text, or an authentication error. */
  datatype Error = Plain(text: string) | Auth(auth: AuthenticationError)

  /** `Error()` of an authentication error. */
  function Render(e: AuthenticationError): string
  {
    match e.cause
    case None => CodeName(e.code) + ": " + e.message
    case Some(c) => CodeName(e.code) + ": " + e.message + " (underlying error: " + c + ")"
  }

  /** `Error()` of any error value. */
  function Text(e: Error): string
  {
    match e
    case Plain(t) => t
    case Auth(a) => Render(a)
  }

  /** The code a rendered error text starts with, if any: the inverse of the
      code part of `Render`. */
  function CodeOf(text: string): Option<ErrorCode>
  {
    if CodeName(DeviceCodeRequest) + ": " <= text then Some(DeviceCodeRequest)
    else if CodeName(AuthPolling) + ": " <= text then Some(AuthPolling)
    else if CodeName(SaveToken) + ": " <= text then Some(SaveToken)
    else if CodeName(TokenRefresh) + ": " <= text then Some(TokenRefresh)
    else None
  }

  /** The four code constants are pairwise distinct. */
  lemma CodeNamesDistinct(a: ErrorCode, b: ErrorCode)
    ensures CodeName(a) == CodeName(b) <==> a == b
  {}

  /** No code's rendered prefix `NAME: ` is a prefix of another code's. */
  lemma CodePrefixesExclusive(a: ErrorCode, b: ErrorCode)
    requires a != b
    ensures !(CodeName(a) + ": " <= CodeName(b) + ": ")
  {
    // The four names already differ in their first letter.
    var pa, pb := CodeName(a) + ": ", CodeName(b) + ": ";
    assert pa[0] == CodeName(a)[0] && pb[0] == CodeName(b)[0];
    assert CodeName(a)[0] != CodeName(b)[0];
  }

  /** Two prefixes of one text are ordered by the prefix relation. */
  lemma PrefixesComparable(p: string, q: string, s: string)
    requires p <= s && q <= s && |p| <= |q|
    ensures p <= q
  {}

  /** The rendered text of every error names its code: `CodeOf` recovers it,
      whatever the message and cause. */
  lemma RenderNamesCode(e: AuthenticationError)
    ensures CodeOf(Render(e)) == Some(e.code)
  {
    var s := Render(e);
    var own := CodeName(e.code) + ": ";
    assert own <= s;
    forall other: ErrorCode | other != e.code
      ensures !(CodeName(other) + ": " <= s)
    {
      var p := CodeName(other) + ": ";
      if p <= s {
        if |p| <= |own| {
          PrefixesComparable(p, own, s);
          CodePrefixesExclusive(other, e.code);
        } else {
          PrefixesComparable(own, p, s);
          CodePrefixesExclusive(e.code, other);
        }
      }
    }
  }

  /** Two errors whose texts are equal have the same code: a caller can branch
      on the kind from the text alone. */
  lemma RenderDeterminesCode(e1: AuthenticationError, e2: AuthenticationError)
    requires Render(e1) == Render(e2)
    ensures e1.code == e2.code
  {
    RenderNamesCode(e1);
    RenderNamesCode(e2);
  }

  /** A cause only appends to the text: the cause-free rendering is a prefix,
      followed by the parenthesised cause. */
  lemma RenderWithCause(e: AuthenticationError, c: string)
    requires e.cause == Some(c)
    ensures Render(e) == Render(e.(cause := None)) + " (underlying error: " + c + ")"
    ensures Render(e.(cause := None)) <= Render(e)
  {}

  /** The error every constructor builds: its own code and fixed message, and
      the cause exactly as given. */
  function NewError(c: ErrorCode, cause: Option<string>): (e: AuthenticationError)
    ensures CodeOf(Render(e)) == Some(c)
    ensures CodeName(c) + ": " + MessageFor(c) <= Render(e)
    ensures e.code == c && e.message == MessageFor(c) && e.cause == cause
  {
    var e := AuthenticationError(c, MessageFor(c), cause);
    RenderNamesCode(e);
    e
  }

  function NewDeviceCodeError(cause: Option<string>): (e: AuthenticationError)
    ensures CodeOf(Render(e)) == Some(DeviceCodeRequest) && e.cause == cause
    ensures e.message == "Failed to request device code"
  {
    NewError(DeviceCodeRequest, cause)
  }

  function NewTokenPollingError(cause: Option<string>): (e: AuthenticationError)
    ensures CodeOf(Render(e)) == Some(AuthPolling) && e.cause == cause
    ensures e.message == "Failed to poll for authentication token"
  {
    NewError(AuthPolling, cause)
  }

  function NewTokenSavingError(cause: Option<string>): (e: AuthenticationError)
    ensures CodeOf(Render(e)) == Some(SaveToken) && e.cause == cause
    ensures e.message == "Failed to save authentication tokens"
  {
    NewError(SaveToken, cause)
  }

  function NewTokenRefreshError(cause: Option<string>): (e: AuthenticationError)
    ensures CodeOf(Render(e)) == Some(TokenRefresh) && e.cause == cause
    ensures e.message == "Failed to refresh authentication token"
  {
    NewError(TokenRefresh, cause)
  }
}

=== FILE: executor.dfy ===
/** The command guard (internal/commands/executor.go): a substring blacklist
    check on each command, a fail-fast execution of a command list, and the
    classification of the user's yes/no answer. The shell and the terminal
    are oracles: the shell's outcome for each command and the lines read. */
module Executor {
  import opened Wrappers

  /** The configured dangerous patterns (internal/config/config.go). */
  const DangerousPatterns: seq<string> := ["rm -rf", "sudo", "dd ", ":(){ :|:& };:", "mkfs", "format"]

  const NotAllowed := "este comando no está permitido en Missions"

  /** `p` occurs in `s` starting at index `i`. */
  predicate OccursAt(s: string, p: string, i: nat)
    requires i <= |s|
  {
    p <= s[i..]
  }

  /** `strings.Contains`: `p` occurs somewhere in `s` (the empty pattern
      occurs everywhere). */
  ghost predicate Contains(s: string, p: string)
  {
    exists i: nat :: i <= |s| && OccursAt(s, p, i)
  }

  /** Search for `p` in `s` from index `i` on. */
  function ContainsFrom(s: string, p: string, i: nat): (b: bool)
    requires i <= |s|
    ensures b <==> exists j: nat :: i <= j <= |s| && OccursAt(s, p, j)
    decreases |s| - i
  {
    if p <= s[i..] then
      assert OccursAt(s, p, i);
      true
    else if i == |s| then false
    else ContainsFrom(s, p, i + 1)
  }

  /** A command is rejected when some pattern, tried in order, occurs in it. */
  function ValidateFrom(patterns: seq<string>, command: string, k: nat): (r: Option<string>)
    requires k <= |patterns|
    ensures r.Some? <==> exists j :: k <= j < |patterns| && Contains(command, patterns[j])
    ensures r.Some? ==> r.value == NotAllowed
    decreases |patterns| - k
  {
    if k == |patterns| then None
    else if ContainsFrom(command, patterns[k], 0) then Some(NotAllowed)
    else ValidateFrom(patterns, command, k + 1)
  }

  /** `ValidateCommand`: an error exactly when some configured pattern is a
      substring of the command. */
  function ValidateCommand(patterns: seq<string>, command: string): (r: Option<string>)
    ensures r.Some? <==> exists j :: 0 <= j < |patterns| && Contains(command, patterns[j])
    ensures r.Some? ==> r.value == NotAllowed
  {
    ValidateFrom(patterns, command, 0)
  }

  predicate Accepted(patterns: seq<string>, command: string)
  {
    ValidateCommand(patterns, command).None?
  }

  /** A pattern holding a character the command lacks does not occur in it. */
  lemma MissingCharacter(s: string, p: string, k: nat)
    requires k < |p| && forall i :: 0 <= i < |s| ==> s[i] != p[k]
    ensures !Contains(s, p)
  {
    forall i: nat | i <= |s|
      ensures !OccursAt(s, p, i)
    {
      if i + k < |s| {
        assert s[i..][k] == s[i + k];
      }
    }
  }

  /** A command invoking `sudo` is refused. */
  lemma RejectsSudo()
    ensures !Accepted(DangerousPatterns, "sudo ls")
  {}

  /** A recursive forced removal in the middle of a command line is refused. */
  lemma RejectsEmbeddedRemoval()
    ensures !Accepted(DangerousPatterns, "cd / && rm -rf tmp")
  {
    var c := "cd / && rm -rf tmp";
    assert c[8..] == "rm -rf tmp";
    assert OccursAt(c, DangerousPatterns[0], 8);
  }

  /** A harmless listing is let through. */
  lemma AcceptsListing()
    ensures Accepted(DangerousPatterns, "ls -la")
  {
    var ls := "ls -la";
    MissingCharacter(ls, DangerousPatterns[0], 0);
    MissingCharacter(ls, DangerousPatterns[1], 1);
    MissingCharacter(ls, DangerousPatterns[2], 0);
    MissingCharacter(ls, DangerousPatterns[3], 0);
    MissingCharacter(ls, DangerousPatterns[4], 2);
    MissingCharacter(ls, DangerousPatterns[5], 0);
    assert forall j :: 0 <= j < |DangerousPatterns| ==> !Contains(ls, DangerousPatterns[j]);
  }

  /** The shell's outcome for one command: its combined output, and for a
      failed run the error's text. */
  datatype ShellRun = Ran(output: string) | Crashed(output: string, reason: string)

  function Rejection(command: string): string
  {
    "\U{1F46E} Comando peligroso: '" + command + "': " + NotAllowed
  }

  function ExecutionFailure(command: string, reason: string): string
  {
    "\U{1F525} La ejecución del comando ['" + command + "'] ha sido incorrecta: " + reason
  }

  /** The outputs of the first `n` runs, in order. */
  function Outputs(shell: seq<ShellRun>, n: nat): (r: seq<string>)
    requires n <= |shell|
    ensures |r| == n && forall i :: 0 <= i < n ==> r[i] == shell[i].output
  {
    seq(n, i requires 0 <= i < n => shell[i].output)
  }

  /** Command `i` is accepted by the guard and runs successfully. */
  predicate Passes(patterns: seq<string>, commands: seq<string>, shell: seq<ShellRun>, i: nat)
    requires |shell| == |commands| && i < |commands|
  {
    Accepted(patterns, commands[i]) && shell[i].Ran?
  }

  /** The index of the first command that is refused or fails, or the number
      of commands when none is. */
  function StopFrom(patterns: seq<string>, commands: seq<string>, shell: seq<ShellRun>, k: nat): (j: nat)
    requires |shell| == |commands| && k <= |commands|
    ensures k <= j <= |commands|
    ensures forall i :: k <= i < j ==> Passes(patterns, commands, shell, i)
    ensures j < |commands| ==> !Passes(patterns, commands, shell, j)
    decreases |commands| - k
  {
    if k == |commands| || !Passes(patterns, commands, shell, k) then k
    else StopFrom(patterns, commands, shell, k + 1)
  }

  function Stop(patterns: seq<string>, commands: seq<string>, shell: seq<ShellRun>): nat
    requires |shell| == |commands|
  {
    StopFrom(patterns, commands, shell, 0)
  }

  /** `ExecuteCommand`: validate and run each command in order, stopping at
      the first refused or failing one. `executed` counts the commands handed
      to the shell; `results` None stands for Go's nil slice. */
  method ExecuteCommand(patterns: seq<string>, commands: seq<string>, shell: seq<ShellRun>)
    returns (results: Option<seq<string>>, err: Option<string>, executed: nat)
    requires |shell| == |commands|
    ensures executed <= |commands|
    ensures forall i :: 0 <= i < executed ==> Accepted(patterns, commands[i])
    ensures var j := Stop(patterns, commands, shell);
      && (j == |commands| ==>
            results == Some(Outputs(shell, |commands|)) && err.None? && executed == |commands|)
      && (j < |commands| && !Accepted(patterns, commands[j]) ==>
            results.None? && err == Some(Rejection(commands[j])) && executed == j)
      && (j < |commands| && Accepted(patterns, commands[j]) ==>
            && results == Some(Outputs(shell, j))
            && err == Some(ExecutionFailure(commands[j], shell[j].reason))
            && executed == j + 1)
  {
    var acc: seq<string> := [];
    var i := 0;
    while i < |commands|
      invariant i <= |commands|
      invariant forall k :: 0 <= k < i ==> Passes(patterns, commands, shell, k)
      invariant forall k :: 0 <= k < i ==> Accepted(patterns, commands[k])
      invariant acc == Outputs(shell, i)
      invariant StopFrom(patterns, commands, shell, i) == Stop(patterns, commands, shell)
    {
      if ValidateCommand(patterns, commands[i]).Some? {
        return None, Some(Rejection(commands[i])), i;
      }
      match shell[i]
      case Crashed(_, reason) =>
        return Some(acc), Some(ExecutionFailure(commands[i], reason)), i + 1;
      case Ran(output) =>
        acc := acc + [output];
      i := i + 1;
    }
    return Some(acc), None, |commands|;
  }

  /** The classification of one answer to the confirmation prompt. */
  datatype Answer = Yes | No | AskAgain

  /** The white space of `unicode.IsSpace`: the Latin-1 spaces and the
      Unicode space separators. */
  const WhiteSpace: set<char> := {
    ' ', '\t', '\n', '\r', '\U{0B}', '\U{0C}', '\U{85}', '\U{A0}', '\U{1680}',
    '\U{2000}', '\U{2001}', '\U{2002}', '\U{2003}', '\U{2004}', '\U{2005}',
    '\U{2006}', '\U{2007}', '\U{2008}', '\U{2009}', '\U{200A}',
    '\U{2028}', '\U{2029}', '\U{202F}', '\U{205F}', '\U{3000}'
  }

  /** `unicode.IsSpace`. */
  predicate IsSpace(c: char)
  {
    c in WhiteSpace
  }

  /** The visible ASCII and Latin-1 characters are not white space. */
  lemma VisibleNotSpace(c: char)
    requires 0x21 <= c as int <= 0x7E || 0xA1 <= c as int <= 0xFF
    ensures !IsSpace(c)
  {}

  /** The capitals `LowerChar` maps: ASCII and Latin-1, and the dotted
      capital I. */
  predicate IsUpper(c: char)
  {
    'A' <= c <= 'Z' || (0xC0 <= c as int <= 0xDE && c as int != 0xD7) || c == '\U{130}'
  }

  /** Lower-case mapping of a single character, as `unicode.ToLower` does it
      for the ASCII and Latin-1 capitals (32 code points down) and for the
      dotted capital I, which becomes a plain `i`. */
  function LowerChar(c: char): (l: char)
    ensures !IsUpper(l)
    ensures IsSpace(l) <==> IsSpace(c)
    ensures !IsUpper(c) ==> l == c
    ensures 'A' <= c <= 'Z' ==> l as int == c as int + 32 && 'a' <= l <= 'z'
    ensures c == '\U{130}' ==> l == 'i'
  {
    if c == '\U{130}' then 'i'
    else if IsUpper(c) then (c as int + 32) as char else c
  }

  function ToLower(s: string): (r: string)
    ensures |r| == |s| && forall i :: 0 <= i < |s| ==> r[i] == LowerChar(s[i])
  {
    seq(|s|, i requires 0 <= i < |s| => LowerChar(s[i]))
  }

  /** The end of the run of characters satisfying `f` that starts at `i`. */
  function RunEnd(s: string, f: char -> bool, i: nat): (j: nat)
    requires i <= |s|
    ensures i <= j <= |s|
    ensures j == |s| || !f(s[j])
    ensures forall k :: i <= k < j ==> f(s[k])
    decreases |s| - i
  {
    if i < |s| && f(s[i]) then RunEnd(s, f, i + 1) else i
  }

  /** The start of the run of characters satisfying `f` that ends just
      before `j`. */
  function RunStart(s: string, f: char -> bool, j: nat): (i: nat)
    requires j <= |s|
    ensures i <= j
    ensures i == 0 || !f(s[i - 1])
    ensures forall k :: i <= k < j ==> f(s[k])
  {
    if j > 0 && f(s[j - 1]) then RunStart(s, f, j - 1) else j
  }

  /** `strings.TrimLeftFunc`: drop the leading characters that satisfy `f`. */
  function TrimLeftFunc(s: string, f: char -> bool): (r: string)
    ensures |r| <= |s|
    ensures r == s[|s| - |r|..]
    ensures |r| == 0 || !f(r[0])
    ensures forall i :: 0 <= i < |s| - |r| ==> f(s[i])
  {
    s[RunEnd(s, f, 0)..]
  }

  /** `strings.TrimRightFunc`: drop the trailing characters that satisfy `f`. */
  function TrimRightFunc(s: string, f: char -> bool): (r: string)
    ensures |r| <= |s|
    ensures r == s[..|r|]
    ensures |r| == 0 || !f(r[|r| - 1])
    ensures forall i :: |r| <= i < |s| ==> f(s[i])
  {
    s[..RunStart(s, f, |s|)]
  }

  /** `r` is the slice of `s` starting at `i`, and every character of `s`
      outside that slice satisfies `f`. */
  predicate TrimmedSlice(s: string, r: string, i: nat, f: char -> bool)
  {
    && i + |r| <= |s|
    && r == s[i..i + |r|]
    && (forall k :: 0 <= k < i ==> f(s[k]))
    && (forall k :: i + |r| <= k < |s| ==> f(s[k]))
  }

  /** Trimming the left of `s` and then the right of the rest leaves a
      framed slice of `s`. */
  lemma TrimmedSliceOfTrims(s: string, l: string, r: string, f: char -> bool)
    requires |l| <= |s| && l == s[|s| - |l|..]
    requires forall k :: 0 <= k < |s| - |l| ==> f(s[k])
    requires |r| <= |l| && r == l[..|r|]
    requires forall k :: |r| <= k < |l| ==> f(l[k])
    ensures TrimmedSlice(s, r, |s| - |l|, f)
  {}

  /** `strings.TrimFunc`: drop the characters satisfying `f` at either end;
      what is left starts and ends with a character that does not. */
  function TrimFunc(s: string, f: char -> bool): (r: string)
    ensures |r| == 0 || (!f(r[0]) && !f(r[|r| - 1]))
    ensures exists i: nat :: TrimmedSlice(s, r, i, f)
  {
    var l := TrimLeftFunc(s, f);
    var r := TrimRightFunc(l, f);
    TrimmedSliceOfTrims(s, l, r, f);
    assert |r| == 0 || r[0] == l[0];
    var i: nat := |s| - |l|;
    assert TrimmedSlice(s, r, i, f);
    r
  }

  /** `strings.TrimSpace`, which is `TrimFunc` with `unicode.IsSpace`. */
  function TrimSpace(s: string): (r: string)
    ensures |r| == 0 || (!IsSpace(r[0]) && !IsSpace(r[|r| - 1]))
    ensures exists i: nat :: TrimmedSlice(s, r, i, IsSpace)
  {
    TrimFunc(s, IsSpace)
  }

  /** Trimming a string that starts and ends with non-space characters
      leaves it as it is. */
  lemma TrimSpaceOfTrimmed(s: string)
    requires |s| == 0 || (!IsSpace(s[0]) && !IsSpace(s[|s| - 1]))
    ensures TrimSpace(s) == s
  {}

  /** The answer as the prompt compares it: trimmed, then lower-cased. */
  function Normalize(response: string): string
  {
    ToLower(TrimSpace(response))
  }

  /** The classifier inside `ConfirmExecution`. */
  function ClassifyAnswer(response: string): (a: Answer)
    ensures a == Yes <==> Normalize(response) in {"sí", "si", "s", ""}
    ensures a == No <==> Normalize(response) in {"no", "n"}
  {
    var n := Normalize(response);
    if n == "sí" || n == "si" || n == "s" || n == "" then Yes
    else if n == "no" || n == "n" then No
    else AskAgain
  }


  /** Lower-casing twice is lower-casing once. */
  lemma ToLowerIdempotent(s: string)
    ensures ToLower(ToLower(s)) == ToLower(s)
  {}

  /** Normalising twice is normalising once. */
  lemma NormalizeIdempotent(response: string)
    ensures Normalize(Normalize(response)) == Normalize(response)
  {}

  /** Surrounding white space and letter case do not change the answer. */
  lemma ClassifyIgnoresCaseAndPadding(response: string)
    ensures ClassifyAnswer(Normalize(response)) == ClassifyAnswer(response)
  {
    NormalizeIdempotent(response);
  }

  /** An accented capital answer counts as yes. */
  lemma AccentedCapitalIsYes()
    ensures ClassifyAnswer("Sí") == Yes
  {
    VisibleNotSpace('S');
    VisibleNotSpace('í');
    assert TrimLeftFunc("Sí", IsSpace) == "Sí";
    assert TrimRightFunc("Sí", IsSpace) == "Sí";
    assert ToLower("Sí") == "sí";
  }

  /** The dotted capital I lowers to a plain `i`, so `Sİ` counts as yes. */
  lemma DottedCapitalIsYes()
    ensures ClassifyAnswer("S\U{130}") == Yes
  {
    VisibleNotSpace('S');
    assert !IsSpace('\U{130}');
    assert TrimLeftFunc("S\U{130}", IsSpace) == "S\U{130}";
    assert TrimRightFunc("S\U{130}", IsSpace) == "S\U{130}";
    assert ToLower("S\U{130}") == "si";
  }

  lemma PaddedRefusalTrimsLeft()
    ensures TrimLeftFunc(" No\t", IsSpace) == "No\t"
  {}

  lemma PaddedRefusalTrimsRight()
    ensures TrimRightFunc("No\t", IsSpace) == "No"
  {
    VisibleNotSpace('o');
    assert IsSpace('\t');
    assert RunStart("No\t", IsSpace, 2) == 2;
    assert RunStart("No\t", IsSpace, 3) == 2;
    assert "No\t"[..2] == "No";
  }

  lemma PaddedRefusalTrims()
    ensures TrimSpace(" No\t") == "No"
  {
    PaddedRefusalTrimsLeft();
    PaddedRefusalTrimsRight();
  }

  lemma PaddedRefusalNormalizes()
    ensures Normalize(" No\t") == "no"
  {
    PaddedRefusalTrims();
    assert ToLower("No") == "no";
  }

  /** A padded capitalised refusal counts as no. */
  lemma PaddedRefusalIsNo()
    ensures ClassifyAnswer(" No\t") == No
  {
    PaddedRefusalNormalizes();
  }

  /** An English answer is not understood, and the prompt repeats. */
  lemma EnglishAnswerAsksAgain()
    ensures ClassifyAnswer("yes") == AskAgain
  {
    VisibleNotSpace('y');
    VisibleNotSpace('s');
    assert TrimLeftFunc("yes", IsSpace) == "yes";
    assert TrimRightFunc("yes", IsSpace) == "yes";
    assert ToLower("yes") == "yes";
  }

  /** One line read at the prompt: a read error, or the token read. */
  datatype ReadLine = ReadFailed(reason: string) | Line(response: string)

  function Verdict(read: ReadLine): Answer
  {
    match read
    case ReadFailed(_) => AskAgain
    case Line(response) => ClassifyAnswer(response)
  }

  /** The index of the first decisive answer from `from` on, or the number
      of answers when there is none. */
  function FirstDecisive(answers: seq<Answer>, from: nat): (i: nat)
    requires from <= |answers|
    ensures from <= i <= |answers|
    ensures forall k :: from <= k < i ==> answers[k] == AskAgain
    ensures i < |answers| ==> answers[i] != AskAgain
    decreases |answers| - from
  {
    if from == |answers| || answers[from] != AskAgain then from
    else FirstDecisive(answers, from + 1)
  }

  function Verdicts(lines: seq<ReadLine>): (answers: seq<Answer>)
    ensures |answers| == |lines| && forall k :: 0 <= k < |lines| ==> answers[k] == Verdict(lines[k])
  {
    seq(|lines|, k requires 0 <= k < |lines| => Verdict(lines[k]))
  }

  /** `ConfirmExecution`: ask until a decisive answer arrives; None when the
      lines run out first (the prompt is still waiting). */
  function ConfirmExecution(lines: seq<ReadLine>): (r: Option<bool>)
    ensures r.None? <==> forall k :: 0 <= k < |lines| ==> Verdict(lines[k]) == AskAgain
    ensures r.Some? ==> exists i :: (0 <= i < |lines|
      && (forall k :: 0 <= k < i ==> Verdict(lines[k]) == AskAgain)
      && Verdict(lines[i]) == (if r.value then Yes else No))
  {
    var answers := Verdicts(lines);
    var i := FirstDecisive(answers, 0);
    if i == |lines| then None
    else Some(answers[i] == Yes)
  }
}

=== FILE: login.dfy ===
/** The login sequence (internal/auth/login.go): request a device code, poll
    for the token, save it. Each stage that fails ends the login with a fresh
    plain error message; later stages are not attempted.

    The device-code request is an oracle result; polling and saving are the
    models of the poller and of the token store. The user-facing printing is
    left out. */
module Login {
  import opened Wrappers
  import opened AuthErrors
  import opened SecureStorage
  import opened TokenManager
  import opened TokenPoller

  const DeviceCodeFailed := "\U{1F6AB} No sido posible solicitar el código de dispositivo a Missions"
  const PollingFailed := "\U{1F6AB} No ha sido posible obtener el token de autenticación de Missions"
  const SavingFailed := "\U{1F6AB} No ha sido posible guardar el token de autenticación de Missions en tu sistema"

  /** How a login ends: success, a returned error, still blocked in the
      polling loop when the server's rounds run out, or the ticker's panic. */
  datatype LoginOutcome = LoggedIn | LoginFailed(err: Error) | StillPolling | Crashed

  /** A login's outcome, the storage after it, and how many token requests
      were sent. */
  datatype LoginRun = LoginRun(outcome: LoginOutcome, storage: Storage, polls: nat)

  /** `Login`. `start` is the clock when polling begins, `savedAt` the clock
      when the token is saved. The two are separate readings: the model does
      not tie `savedAt` to `start` or to the rounds' elapsed time, although in
      the program the save happens after the last poll. */
  function Login(
    deviceReply: Result<DeviceCodeResponse, AuthenticationError>,
    start: int, rounds: seq<Round>,
    st: Storage, savedAt: int, faults: Faults): (r: LoginRun)
    ensures deviceReply.Failure? ==> r == LoginRun(LoginFailed(Plain(DeviceCodeFailed)), st, 0)
    ensures deviceReply.Success? && PollForToken(deviceReply.value, start, rounds).outcome.PollFailed? ==>
      r.outcome == LoginFailed(Plain(PollingFailed)) && r.storage == st
    ensures r.outcome.LoginFailed? ==> r.outcome.err.Plain?
    ensures r.storage != st ==>
      deviceReply.Success? && PollForToken(deviceReply.value, start, rounds).outcome.Granted?
    ensures r.outcome.LoggedIn? <==>
      && deviceReply.Success?
      && PollForToken(deviceReply.value, start, rounds).outcome.Granted?
      && SaveTokens(st, PollForToken(deviceReply.value, start, rounds).outcome.token, savedAt, faults).err.None?
    ensures deviceReply.Success? ==>
      var p := PollForToken(deviceReply.value, start, rounds);
      && r.polls == p.polls
      && (p.outcome.Panicked? <==> r.outcome == Crashed)
      && (p.outcome.Waiting? <==> r.outcome == StillPolling)
    ensures deviceReply.Success? && PollForToken(deviceReply.value, start, rounds).outcome.Granted? ==>
      var saved := SaveTokens(st, PollForToken(deviceReply.value, start, rounds).outcome.token, savedAt, faults);
      && r.storage == saved.storage
      && r.outcome == (if saved.err.None? then LoggedIn else LoginFailed(Plain(SavingFailed)))
  {
    match deviceReply
    case Failure(_) => LoginRun(LoginFailed(Plain(DeviceCodeFailed)), st, 0)
    case Success(dc) =>
      var polled := PollForToken(dc, start, rounds);
      match polled.outcome
      case Panicked => LoginRun(Crashed, st, polled.polls)
      case Waiting(_) => LoginRun(StillPolling, st, polled.polls)
      case PollFailed(_) => LoginRun(LoginFailed(Plain(PollingFailed)), st, polled.polls)
      case Granted(token) =>
        var saved := SaveTokens(st, token, savedAt, faults);
        if saved.err.Some? then LoginRun(LoginFailed(Plain(SavingFailed)), saved.storage, polled.polls)
        else LoginRun(LoggedIn, saved.storage, polled.polls)
  }

  /** End to end: a successful login leaves the three token keys stored with
      the granted token's values, the session reads as unexpired until five
      minutes before its lifetime ends, and the current token is the access
      token granted. */
  lemma LoginStoresTokens(
    deviceReply: Result<DeviceCodeResponse, AuthenticationError>,
    start: int, rounds: seq<Round>,
    st: Storage, savedAt: int, faults: Faults, now: int)
    requires Login(deviceReply, start, rounds, st, savedAt, faults).outcome.LoggedIn?
    ensures var token := PollForToken(deviceReply.value, start, rounds).outcome.token;
      var st' := Login(deviceReply, start, rounds, st, savedAt, faults).storage;
      && Get(st', AccessTokenKey, None) == Success(token.accessToken)
      && Get(st', RefreshTokenKey, None) == Success(token.refreshToken)
      && Get(st', ExpiresAtKey, None).Success?
      && IsTokenExpired(st', now, None) == Expiry(now > savedAt + token.expiresIn - ExpiryBufferSeconds, None)
      && (now <= savedAt + token.expiresIn - ExpiryBufferSeconds ==>
            GetCurrentToken(st', now, CleanReads) == TokenReply(token.accessToken, None))
  {
    var token := PollForToken(deviceReply.value, start, rounds).outcome.token;
    SavedTokenExpiry(st, token, savedAt, faults, now);
    if now <= savedAt + token.expiresIn - ExpiryBufferSeconds {
      SaveThenGetCurrentToken(st, token, savedAt, faults, now);
    }
  }

  /** A failed device-code request sends no token request and leaves the
      storage untouched; a failed poll saves nothing. */
  lemma EarlyFailuresWriteNothing(
    deviceReply: Result<DeviceCodeResponse, AuthenticationError>,
    start: int, rounds: seq<Round>,
    st: Storage, savedAt: int, faults: Faults)
    requires Login(deviceReply, start, rounds, st, savedAt, faults).outcome.LoginFailed?
    requires Login(deviceReply, start, rounds, st, savedAt, faults).outcome.err.text != SavingFailed
    ensures Login(deviceReply, start, rounds, st, savedAt, faults).storage == st
    ensures deviceReply.Failure? ==> Login(deviceReply, start, rounds, st, savedAt, faults).polls == 0
  {}
}

=== FILE: secure_storage.dfy ===
/** Credential storage with two backends (internal/auth/token_manager.go):
    the OS keyring, one entry per key, or — when the keyring is unavailable —
    an encrypted file holding one whole key→value map that every operation
    loads, changes and writes back.

    The model keeps both backends in one world state and a mode bit chosen
    once at construction. The file's encryption and encoding are abstracted
    to a `Blob` that either decodes to a map (possibly JSON `null`) or fails
    to decode. Each write or delete takes a `fault` oracle: None when the
    backend accepts the operation, Some(reason) when it reports failure.
    A keyring read takes one too: Some(reason) is a keyring that answers
    with an error of its own (locked, unreachable) rather than a value or
    not-found. */
module SecureStorage {
  import opened Wrappers

  type Entries = map<string, string>

  /** The decrypted and decoded content of the fallback file. `Sealed(None)`
      is a well-formed store whose `data` field is JSON null; `Garbled` is
      any base64, decryption or JSON failure, with its message. */
  datatype Blob = Sealed(data: Option<Entries>) | Garbled(reason: string)

  /** The fallback file on disk. */
  datatype File = Missing | Unreadable(reason: string) | Stored(blob: Blob)

  datatype Storage = Storage(useKeyring: bool, keyring: Entries, file: File)

  /** The outcome of a write or delete: the new world state and Go's error. */
  datatype Written = Written(storage: Storage, err: Option<string>)

  /** go-keyring's error for an absent key. */
  const KeyringNotFound := "secret not found in keyring"

  /** The fallback backend's error for an absent key. */
  const FallbackNotFound := "key not found"

  /** What the file codec writes for a map: a store that decodes to it. */
  function Encode(m: Entries): (b: Blob)
    ensures Decode(b) == Success(m)
  {
    Sealed(Some(m))
  }

  function Decode(b: Blob): Result<Entries, string>
  {
    match b
    case Sealed(None) => Success(map[])
    case Sealed(Some(m)) => Success(m)
    case Garbled(reason) => Failure(reason)
  }

  /** `loadStore`: a missing file is the empty store, an unreadable file is
      its read error, otherwise the decoded store. */
  function LoadStore(f: File): (r: Result<Entries, string>)
    ensures f.Missing? ==> r == Success(map[])
    ensures f.Unreadable? ==> r == Failure(f.reason)
    ensures f.Stored? && f.blob.Sealed? && f.blob.data.None? ==> r == Success(map[])
    ensures f.Stored? && f.blob.Sealed? && f.blob.data.Some? ==> r == Success(f.blob.data.value)
    ensures f.Stored? && f.blob.Garbled? ==> r.Failure?
  {
    match f
    case Missing => Success(map[])
    case Unreadable(reason) => Failure(reason)
    case Stored(b) => Decode(b)
  }

  /** `saveStore`: replace the whole file with the encoded map, unless the
      backend refuses the write, in which case the file is left as it was. */
  function SaveStore(st: Storage, m: Entries, fault: Option<string>): (r: Written)
    ensures r.err == fault
    ensures r.err.None? ==> LoadStore(r.storage.file) == Success(m)
    ensures r.err.Some? ==> r.storage == st
    ensures r.storage.keyring == st.keyring && r.storage.useKeyring == st.useKeyring
  {
    if fault.Some? then Written(st, fault) else Written(st.(file := Stored(Encode(m))), None)
  }

  /** The map the storage currently presents: the keyring's entries, or the
      loaded fallback store. */
  function View(st: Storage): Result<Entries, string>
  {
    if st.useKeyring then Success(st.keyring) else LoadStore(st.file)
  }

  /** `newSecureStorage`: the keyring is used exactly when the probe found it
      available; otherwise the storage presents the fallback file. */
  function NewSecureStorage(keyringAvailable: bool, keyring: Entries, file: File): (st: Storage)
    ensures st.useKeyring <==> keyringAvailable
    ensures !keyringAvailable ==> View(st) == LoadStore(file)
    ensures keyringAvailable ==> View(st) == Success(keyring)
  {
    Storage(keyringAvailable, keyring, file)
  }

  /** The frame every operation keeps: the mode never changes, and only the
      backend of the current mode may change. */
  predicate Framed(st: Storage, st': Storage)
  {
    && st'.useKeyring == st.useKeyring
    && (st.useKeyring ==> st'.file == st.file)
    && (!st.useKeyring ==> st'.keyring == st.keyring)
  }

  /** `Set`: store one key, keeping every other key. */
  function Set(st: Storage, key: string, value: string, fault: Option<string>): (r: Written)
    ensures r.err.None? <==> View(st).Success? && fault.None?
    ensures r.err.None? ==> View(r.storage) == Success(View(st).value[key := value])
    ensures r.err.Some? ==> r.storage == st
    ensures View(st).Failure? ==> r.err == Some(View(st).error)
    ensures Framed(st, r.storage)
  {
    if st.useKeyring then
      if fault.Some? then Written(st, fault)
      else Written(st.(keyring := st.keyring[key := value]), None)
    else
      match LoadStore(st.file)
      case Failure(e) => Written(st, Some(e))
      case Success(m) => SaveStore(st, m[key := value], fault)
  }

  /** `Get`: the stored value, or the backend's not-found error, or the
      keyring's own read error (`fault`, keyring mode only), or the load error
      of the fallback file. */
  function Get(st: Storage, key: string, fault: Option<string>): (r: Result<string, string>)
    ensures r.Success? <==>
      View(st).Success? && key in View(st).value && (st.useKeyring ==> fault.None?)
    ensures r.Success? ==> r.value == View(st).value[key]
    ensures View(st).Failure? ==> r == Failure(View(st).error)
    ensures st.useKeyring && fault.Some? ==> r == Failure(fault.value)
    ensures View(st).Success? && key !in View(st).value && (st.useKeyring ==> fault.None?) ==>
      r == Failure(if st.useKeyring then KeyringNotFound else FallbackNotFound)
  {
    if st.useKeyring then
      if fault.Some? then Failure(fault.value)
      else if key in st.keyring then Success(st.keyring[key]) else Failure(KeyringNotFound)
    else
      match LoadStore(st.file)
      case Failure(e) => Failure(e)
      case Success(m) => if key in m then Success(m[key]) else Failure(FallbackNotFound)
  }

  /** `Delete`: remove one key, keeping every other key. The keyring refuses
      to delete an absent key; the fallback store accepts it and rewrites the
      file unchanged in content. */
  function Delete(st: Storage, key: string, fault: Option<string>): (r: Written)
    ensures r.err.None? <==>
      View(st).Success? && fault.None? && (st.useKeyring ==> key in st.keyring)
    ensures r.err.None? ==> View(r.storage) == Success(View(st).value - {key})
    ensures r.err.Some? ==> r.storage == st
    ensures Framed(st, r.storage)
  {
    if st.useKeyring then
      if fault.Some? then Written(st, fault)
      else if key !in st.keyring then Written(st, Some(KeyringNotFound))
      else Written(st.(keyring := st.keyring - {key}), None)
    else
      match LoadStore(st.file)
      case Failure(e) => Written(st, Some(e))
      case Success(m) => SaveStore(st, m - {key}, fault)
  }

  /** Set then Get of the same key returns the value written. */
  lemma SetThenGet(st: Storage, key: string, value: string)
    requires Set(st, key, value, None).err.None?
    ensures Get(Set(st, key, value, None).storage, key, None) == Success(value)
  {}

  /** Set leaves the result of Get unchanged for every other key, whatever
      the keyring answers to that read. */
  lemma SetKeepsOtherKeys(st: Storage, key: string, value: string, fault: Option<string>, other: string, readFault: Option<string>)
    requires other != key
    ensures Get(Set(st, key, value, fault).storage, other, readFault) == Get(st, other, readFault)
  {}

  /** After a successful Delete, Get of that key fails with not-found. */
  lemma DeleteThenGet(st: Storage, key: string)
    requires Delete(st, key, None).err.None?
    ensures Get(Delete(st, key, None).storage, key, None) ==
      Failure(if st.useKeyring then KeyringNotFound else FallbackNotFound)
  {}

  /** Deleting twice presents the same map as deleting once; the fallback
      store also accepts the second delete without error. */
  lemma DeleteIdempotent(st: Storage, key: string)
    requires Delete(st, key, None).err.None?
    ensures var once := Delete(st, key, None).storage;
      && View(Delete(once, key, None).storage) == View(once)
      && (!st.useKeyring ==> Delete(once, key, None).err.None?)
  {
    var once := Delete(st, key, None).storage;
    var m := View(once).value;
    assert m - {key} == m;
  }

  /** An unloadable fallback file aborts Set, Get and Delete, and nothing is
      written; no fault oracle changes that. */
  lemma LoadFailureAborts(st: Storage, key: string, value: string, f1: Option<string>, f2: Option<string>, f3: Option<string>)
    requires !st.useKeyring && LoadStore(st.file).Failure?
    ensures Set(st, key, value, f1) == Written(st, Some(LoadStore(st.file).error))
    ensures Delete(st, key, f2) == Written(st, Some(LoadStore(st.file).error))
    ensures Get(st, key, f3) == Failure(LoadStore(st.file).error)
  {}
}

=== FILE: timestamps.dfy ===
/** The stored text of an absolute expiry time. The source writes it with
    RFC 3339 formatting and reads it back with the matching parser; the model
    keeps the same shape — a format function, a partial parser, and the
    round trip between them — over integer seconds written in decimal. */
module Timestamps {
  import opened Wrappers

  predicate IsDigit(c: char)
  {
    '0' <= c <= '9'
  }

  predicate AllDigits(s: string)
  {
    forall i :: 0 <= i < |s| ==> IsDigit(s[i])
  }

  function DigitChar(d: nat): (c: char)
    requires d < 10
    ensures IsDigit(c)
  {
    ['0', '1', '2', '3', '4', '5', '6', '7', '8', '9'][d]
  }

  function DigitValue(c: char): (d: nat)
    requires IsDigit(c)
    ensures d < 10
  {
    (c as int - '0' as int) as nat
  }

  /** Decimal text of a natural number, without leading zeros. */
  function NatText(n: nat): (s: string)
    ensures |s| > 0 && AllDigits(s)
    decreases n
  {
    if n < 10 then [DigitChar(n)] else NatText(n / 10) + [DigitChar(n % 10)]
  }

  /** Value of a string of decimal digits. */
  function DigitsValue(s: string): nat
    requires AllDigits(s)
  {
    if |s| == 0 then 0 else 10 * DigitsValue(s[..|s| - 1]) + DigitValue(s[|s| - 1])
  }

  lemma {:induction false} DigitsValueNatText(n: nat)
    ensures DigitsValue(NatText(n)) == n
    decreases n
  {
    var s := NatText(n);
    if n < 10 {
      assert DigitValue(DigitChar(n)) == n by {
        assert DigitChar(n) as int == '0' as int + n;
      }
    } else {
      assert s[..|s| - 1] == NatText(n / 10);
      assert DigitValue(DigitChar(n % 10)) == n % 10 by {
        assert DigitChar(n % 10) as int == '0' as int + n % 10;
      }
      DigitsValueNatText(n / 10);
    }
  }

  /** Text of an absolute time in seconds; negative times carry a sign. */
  function Format(t: int): string
  {
    if t < 0 then "-" + NatText(-t) else NatText(t)
  }

  /** Parse the text written by `Format`; None for anything that is not an
      optionally signed, non-empty run of digits. */
  function Parse(s: string): (r: Option<int>)
    ensures r.Some? ==> |s| > 0
  {
    if |s| > 0 && s[0] == '-' then
      var digits := s[1..];
      if |digits| > 0 && AllDigits(digits) then Some(0 - DigitsValue(digits) as int) else None
    else if |s| > 0 && AllDigits(s) then Some(DigitsValue(s) as int)
    else None
  }

  /** Every formatted time parses back to itself. */
  lemma ParseFormat(t: int)
    ensures Parse(Format(t)) == Some(t)
  {
    if t < 0 {
      var digits := NatText(-t);
      var s := "-" + digits;
      assert Format(t) == s;
      assert s[0] == '-' && s[1..] == digits;
      DigitsValueNatText(-t);
      assert Parse(s) == Some(0 - DigitsValue(digits) as int);
    } else {
      var s := NatText(t);
      assert Format(t) == s;
      assert IsDigit(s[0]);
      DigitsValueNatText(t);
      assert Parse(s) == Some(DigitsValue(s) as int);
    }
  }
}

=== FILE: token_manager.dfy ===
/** The token lifecycle on top of the credential storage
    (internal/auth/token_manager.go): saving a token response as three keys
    with compensating deletes on partial failure, the expiry check with its
    five-minute safety buffer, the refresh stub, and reading the current
    access token. Clock readings are integer seconds passed in by the caller. */
module TokenManager {
  import opened Wrappers
  import opened AuthErrors
  import opened SecureStorage
  import Timestamps

  /** A token response as decoded from the token endpoint. */
  datatype TokenResponse = TokenResponse(accessToken: string, tokenType: string, refreshToken: string, expiresIn: int)

  const AccessTokenKey := "access_token"
  const RefreshTokenKey := "refresh_token"
  const ExpiresAtKey := "token_expires_at"

  /** A token counts as expired this many seconds before its stored expiry. */
  const ExpiryBufferSeconds := 5 * 60

  /** The backend's answer to each write and compensating delete `SaveTokens`
      may issue, in program order; None means the backend accepts it. */
  datatype Faults = Faults(
    setAccess: Option<string>,
    setRefresh: Option<string>,
    setExpiry: Option<string>,
    deleteAccess: Option<string>,
    deleteRefresh: Option<string>)

  /** The outcome of `SaveTokens`: the new world state, the error, and whether
      the fallback-storage security advisory was shown. */
  datatype Saved = Saved(storage: Storage, err: Option<Error>, advisory: bool)

  function SaveError(cause: string): Error
  {
    Auth(NewTokenSavingError(Some(cause)))
  }

  /** The three entries a successful save adds to a store. */
  function WithTokens(m: Entries, token: TokenResponse, now: int): Entries
  {
    m[AccessTokenKey := token.accessToken]
     [RefreshTokenKey := token.refreshToken]
     [ExpiresAtKey := Timestamps.Format(now + token.expiresIn)]
  }

  /** `SaveTokens`: write the access token, the refresh token and the absolute
      expiry in that order; if a later write fails, delete the keys written
      before it. */
  function SaveTokens(st: Storage, token: TokenResponse, now: int, faults: Faults): (r: Saved)
    ensures r.err.None? <==>
      View(st).Success? && faults.setAccess.None? && faults.setRefresh.None? && faults.setExpiry.None?
    ensures r.err.None? ==> View(r.storage) == Success(WithTokens(View(st).value, token, now))
    ensures r.err.Some? ==> r.err.value.Auth? && r.err.value.auth.code == SaveToken
    ensures r.advisory <==> r.err.None? && !st.useKeyring
    ensures Framed(st, r.storage)
  {
    var w1 := Set(st, AccessTokenKey, token.accessToken, faults.setAccess);
    if w1.err.Some? then
      Saved(w1.storage, Some(SaveError("error saving access token: " + w1.err.value)), false)
    else
      var w2 := Set(w1.storage, RefreshTokenKey, token.refreshToken, faults.setRefresh);
      if w2.err.Some? then
        var d := Delete(w2.storage, AccessTokenKey, faults.deleteAccess);
        if d.err.Some? then
          Saved(d.storage, Some(SaveError("error deleting access token: " + d.err.value)), false)
        else
          Saved(d.storage, Some(SaveError("error saving refresh token: " + w2.err.value)), false)
      else
        var expiresAt := Timestamps.Format(now + token.expiresIn);
        var w3 := Set(w2.storage, ExpiresAtKey, expiresAt, faults.setExpiry);
        if w3.err.Some? then
          var d1 := Delete(w3.storage, AccessTokenKey, faults.deleteAccess);
          if d1.err.Some? then
            Saved(d1.storage, Some(SaveError("error deleting access token: " + d1.err.value)), false)
          else
            var d2 := Delete(d1.storage, RefreshTokenKey, faults.deleteRefresh);
            if d2.err.Some? then
              Saved(d2.storage, Some(SaveError("error deleting refresh token: " + d2.err.value)), false)
            else
              Saved(d2.storage, Some(SaveError("error saving token expiration: " + w3.err.value)), false)
        else
          Saved(w3.storage, None, !st.useKeyring)
  }

  /** A failed refresh-token write is undone by deleting the access token. */
  lemma RollbackAfterRefreshFailure(st: Storage, token: TokenResponse, now: int, faults: Faults)
    requires View(st).Success? && faults.setAccess.None? && faults.setRefresh.Some?
    requires faults.deleteAccess.None?
    ensures View(SaveTokens(st, token, now, faults).storage) == Success(View(st).value - {AccessTokenKey})
  {
    var m := View(st).value;
    var w1 := Set(st, AccessTokenKey, token.accessToken, None);
    var w2 := Set(w1.storage, RefreshTokenKey, token.refreshToken, faults.setRefresh);
    assert w2.storage == w1.storage;
    var d := Delete(w2.storage, AccessTokenKey, None);
    assert SaveTokens(st, token, now, faults).storage == d.storage;
    assert m[AccessTokenKey := token.accessToken] - {AccessTokenKey} == m - {AccessTokenKey};
  }

  /** A failed expiry write is undone by deleting both tokens. */
  lemma RollbackAfterExpiryFailure(st: Storage, token: TokenResponse, now: int, faults: Faults)
    requires View(st).Success? && faults.setAccess.None? && faults.setRefresh.None? && faults.setExpiry.Some?
    requires faults.deleteAccess.None? && faults.deleteRefresh.None?
    ensures View(SaveTokens(st, token, now, faults).storage) ==
      Success(View(st).value - {AccessTokenKey, RefreshTokenKey})
  {
    var m := View(st).value;
    var m2 := m[AccessTokenKey := token.accessToken][RefreshTokenKey := token.refreshToken];
    var w1 := Set(st, AccessTokenKey, token.accessToken, None);
    var w2 := Set(w1.storage, RefreshTokenKey, token.refreshToken, None);
    assert View(w2.storage) == Success(m2);
    var w3 := Set(w2.storage, ExpiresAtKey, Timestamps.Format(now + token.expiresIn), faults.setExpiry);
    assert w3.storage == w2.storage;
    var d1 := Delete(w3.storage, AccessTokenKey, None);
    assert View(d1.storage) == Success(m2 - {AccessTokenKey});
    var d2 := Delete(d1.storage, RefreshTokenKey, None);
    assert View(d2.storage) == Success(m2 - {AccessTokenKey} - {RefreshTokenKey});
    assert SaveTokens(st, token, now, faults).storage == d2.storage;
    assert m2 - {AccessTokenKey} - {RefreshTokenKey} == m - {AccessTokenKey, RefreshTokenKey};
  }

  /** The token keys a failed save leaves behind, when its compensating deletes
      succeed: exactly the state before the call, minus the keys this call had
      already written. */
  lemma SaveTokensRollback(st: Storage, token: TokenResponse, now: int, faults: Faults)
    requires View(st).Success?
    requires faults.deleteAccess.None? && faults.deleteRefresh.None?
    requires SaveTokens(st, token, now, faults).err.Some?
    ensures var m := View(st).value;
      View(SaveTokens(st, token, now, faults).storage) ==
        if faults.setAccess.Some? then Success(m)
        else if faults.setRefresh.Some? then Success(m - {AccessTokenKey})
        else Success(m - {AccessTokenKey, RefreshTokenKey})
  {
    if faults.setAccess.Some? {
    } else if faults.setRefresh.Some? {
      RollbackAfterRefreshFailure(st, token, now, faults);
    } else {
      RollbackAfterExpiryFailure(st, token, now, faults);
    }
  }

  /** All or nothing: after a failed save whose compensating deletes succeed,
      each token key is either absent or still holds its value from before
      the call — none of the values this call wrote survives. */
  lemma SaveTokensAllOrNothing(st: Storage, token: TokenResponse, now: int, faults: Faults, key: string)
    requires View(st).Success?
    requires faults.deleteAccess.None? && faults.deleteRefresh.None?
    requires SaveTokens(st, token, now, faults).err.Some?
    requires key in {AccessTokenKey, RefreshTokenKey, ExpiresAtKey}
    ensures var after := View(SaveTokens(st, token, now, faults).storage);
      && after.Success?
      && (key in after.value ==> key in View(st).value && after.value[key] == View(st).value[key])
  {
    SaveTokensRollback(st, token, now, faults);
  }

  /** The three token keys are all present or all absent. */
  predicate TokenSetWhole(m: Entries)
  {
    || (AccessTokenKey in m && RefreshTokenKey in m && ExpiresAtKey in m)
    || (AccessTokenKey !in m && RefreshTokenKey !in m && ExpiresAtKey !in m)
  }

  /** Starting from a store without a session, a save whose compensating
      deletes succeed leaves either the whole token set or none of it. */
  lemma NoneStaysNone(st: Storage, token: TokenResponse, now: int, faults: Faults)
    requires View(st).Success?
    requires AccessTokenKey !in View(st).value && RefreshTokenKey !in View(st).value
    requires ExpiresAtKey !in View(st).value
    requires faults.deleteAccess.None? && faults.deleteRefresh.None?
    ensures var after := View(SaveTokens(st, token, now, faults).storage);
      after.Success? && TokenSetWhole(after.value)
  {
    if SaveTokens(st, token, now, faults).err.Some? {
      SaveTokensRollback(st, token, now, faults);
    }
  }

  /** The compensating deletes remove keys rather than restore them, so a
      failed save over an existing session breaks the token set: a refused
      refresh-token write leaves the old refresh token and expiry without an
      access token. */
  lemma PartialSetAfterFailedResave(st: Storage, token: TokenResponse, now: int, faults: Faults)
    requires View(st).Success?
    requires AccessTokenKey in View(st).value && RefreshTokenKey in View(st).value
    requires ExpiresAtKey in View(st).value
    requires faults.setAccess.None? && faults.setRefresh.Some? && faults.deleteAccess.None?
    ensures var after := View(SaveTokens(st, token, now, faults).storage);
      && after.Success?
      && AccessTokenKey !in after.value
      && after.value[RefreshTokenKey] == View(st).value[RefreshTokenKey]
      && after.value[ExpiresAtKey] == View(st).value[ExpiresAtKey]
      && !TokenSetWhole(after.value)
  {
    RollbackAfterRefreshFailure(st, token, now, faults);
  }

  /** A failed compensating delete is what the caller is told about: the
      original write failure is masked. */
  lemma SaveTokensDeleteFailureMasks(st: Storage, token: TokenResponse, now: int, faults: Faults)
    requires View(st).Success? && faults.setAccess.None? && faults.setRefresh.Some?
    requires faults.deleteAccess.Some?
    ensures SaveTokens(st, token, now, faults).err ==
      Some(SaveError("error deleting access token: " + faults.deleteAccess.value))
  {}

  /** The keyring's answer to each read `GetCurrentToken` may issue, in
      program order: None is a keyring that answers with the value or
      not-found, Some(reason) one that fails with an error of its own. The
      fallback backend ignores them. */
  datatype Reads = Reads(expiry: Option<string>, refresh: Option<string>, access: Option<string>)

  const CleanReads := Reads(None, None, None)

  /** The outcome of `IsTokenExpired`: Go's `(bool, error)` pair. */
  datatype Expiry = Expiry(expired: bool, err: Option<Error>)

  /** Stands in for the error `time.Parse` returns on a malformed stamp; the
      library's exact wording is not modelled. */
  function ParseError(text: string): Error
  {
    Plain("cannot parse \"" + text + "\" as an RFC 3339 time")
  }

  /** `IsTokenExpired`: a missing or unparsable expiry counts as expired and
      reports its error; otherwise the token is expired when `now` plus the
      buffer is strictly after the stored expiry. */
  function IsTokenExpired(st: Storage, now: int, fault: Option<string>): (r: Expiry)
    ensures r.err.Some? ==> r.expired
    ensures r.err.None? <==>
      Get(st, ExpiresAtKey, fault).Success? && Timestamps.Parse(Get(st, ExpiresAtKey, fault).value).Some?
    ensures r.err.None? ==>
      (r.expired <==> now + ExpiryBufferSeconds > Timestamps.Parse(Get(st, ExpiresAtKey, fault).value).value)
    ensures Get(st, ExpiresAtKey, fault).Failure? ==>
      r == Expiry(true, Some(Plain(Get(st, ExpiresAtKey, fault).error)))
  {
    match Get(st, ExpiresAtKey, fault)
    case Failure(e) => Expiry(true, Some(Plain(e)))
    case Success(text) =>
      match Timestamps.Parse(text)
      case None => Expiry(true, Some(ParseError(text)))
      case Some(expiresAt) => Expiry(now + ExpiryBufferSeconds > expiresAt, None)
  }

  /** A token saved at `savedAt` with lifetime `e` reads as valid up to and
      including `savedAt + e - 300`, and as expired from the next second on. */
  lemma SavedTokenExpiry(st: Storage, token: TokenResponse, savedAt: int, faults: Faults, now: int)
    requires SaveTokens(st, token, savedAt, faults).err.None?
    ensures IsTokenExpired(SaveTokens(st, token, savedAt, faults).storage, now, None) ==
      Expiry(now > savedAt + token.expiresIn - ExpiryBufferSeconds, None)
  {
    var st' := SaveTokens(st, token, savedAt, faults).storage;
    assert Get(st', ExpiresAtKey, None) == Success(Timestamps.Format(savedAt + token.expiresIn));
    Timestamps.ParseFormat(savedAt + token.expiresIn);
  }

  /** `RefreshToken`: always fails, with a cause that depends on whether a
      refresh token can be read; it never touches the storage. */
  function RefreshToken(st: Storage, fault: Option<string>): (r: Option<Error>)
    ensures r.Some? && r.value.Auth? && CodeOf(Text(r.value)) == Some(TokenRefresh)
    ensures r.value.auth.code == TokenRefresh && r.value.auth.message == MessageFor(TokenRefresh)
    ensures r.value.auth.cause ==
      Some(if Get(st, RefreshTokenKey, fault).Failure? then "no refresh token found, please login again"
           else "session expired, please login again")
  {
    match Get(st, RefreshTokenKey, fault)
    case Failure(_) => Some(Auth(NewTokenRefreshError(Some("no refresh token found, please login again"))))
    case Success(_) => Some(Auth(NewTokenRefreshError(Some("session expired, please login again"))))
  }

  /** Go's `(string, error)` result of `GetCurrentToken`. */
  datatype TokenReply = TokenReply(token: string, err: Option<Error>)

  /** `GetCurrentToken` exactly as written: on an expired token whose refresh
      fails it returns the expiry check's error, which is nil whenever the
      stored expiry was readable. */
  function GetCurrentTokenAsWritten(st: Storage, now: int, answers: Reads): (r: TokenReply)
    ensures r.err.None? && r.token != "" ==> Get(st, AccessTokenKey, answers.access) == Success(r.token)
    ensures IsTokenExpired(st, now, answers.expiry).err.Some? ==>
      r == TokenReply("", IsTokenExpired(st, now, answers.expiry).err)
  {
    var check := IsTokenExpired(st, now, answers.expiry);
    if check.err.Some? then TokenReply("", check.err)
    else if check.expired && RefreshToken(st, answers.refresh).Some? then TokenReply("", check.err)
    else
      match Get(st, AccessTokenKey, answers.access)
      case Success(v) => TokenReply(v, None)
      case Failure(e) => TokenReply("", Some(Plain(e)))
  }

  /** The defect: a readable expiry inside the buffer yields an empty token
      together with a nil error, so a caller that checks only the error goes
      on with an empty bearer token. */
  lemma AsWrittenExpiredGivesNoError(st: Storage, now: int, answers: Reads)
    requires Get(st, ExpiresAtKey, answers.expiry).Success?
    requires Timestamps.Parse(Get(st, ExpiresAtKey, answers.expiry).value).Some?
    requires now + ExpiryBufferSeconds > Timestamps.Parse(Get(st, ExpiresAtKey, answers.expiry).value).value
    ensures GetCurrentTokenAsWritten(st, now, answers) == TokenReply("", None)
  {}

  /** A concrete instance: a fallback store holding tokens that expire at 1000,
      queried at 800 (inside the 300-second buffer). */
  lemma AsWrittenExpiredExample()
    ensures var st := Storage(false, map[], Stored(Sealed(Some(map[
        AccessTokenKey := "tok", RefreshTokenKey := "ref", ExpiresAtKey := "1000"]))));
      GetCurrentTokenAsWritten(st, 800, CleanReads) == TokenReply("", None)
  {
    var st := Storage(false, map[], Stored(Sealed(Some(map[
        AccessTokenKey := "tok", RefreshTokenKey := "ref", ExpiresAtKey := "1000"]))));
    assert Timestamps.Parse("1000") == Some(1000) by {
      Timestamps.ParseFormat(1000);
      assert Timestamps.Format(1000) == "1000";
    }
    AsWrittenExpiredGivesNoError(st, 800, CleanReads);
  }

  /** `GetCurrentToken` as evidently intended: an expired token whose refresh
      fails reports the refresh error. A nil error then always comes with the
      stored access token of an unexpired session. */
  function GetCurrentToken(st: Storage, now: int, answers: Reads): (r: TokenReply)
    ensures r.err.None? <==>
      !IsTokenExpired(st, now, answers.expiry).expired && Get(st, AccessTokenKey, answers.access).Success?
    ensures r.err.None? ==> Get(st, AccessTokenKey, answers.access) == Success(r.token)
    ensures r.err.Some? ==> r.token == ""
    ensures IsTokenExpired(st, now, answers.expiry).err.Some? ==> r.err == IsTokenExpired(st, now, answers.expiry).err
    ensures IsTokenExpired(st, now, answers.expiry).err.None? && IsTokenExpired(st, now, answers.expiry).expired ==>
      r.err == RefreshToken(st, answers.refresh)
  {
    var check := IsTokenExpired(st, now, answers.expiry);
    if check.err.Some? then TokenReply("", check.err)
    else if check.expired && RefreshToken(st, answers.refresh).Some? then TokenReply("", RefreshToken(st, answers.refresh))
    else
      match Get(st, AccessTokenKey, answers.access)
      case Success(v) => TokenReply(v, None)
      case Failure(e) => TokenReply("", Some(Plain(e)))
  }

  /** The two versions differ only where the defect lies. */
  lemma CorrectionIsLocal(st: Storage, now: int, answers: Reads)
    ensures !IsTokenExpired(st, now, answers.expiry).expired || IsTokenExpired(st, now, answers.expiry).err.Some? ==>
      GetCurrentToken(st, now, answers) == GetCurrentTokenAsWritten(st, now, answers)
  {}

  /** Save then read back: within the buffer-adjusted lifetime, the current
      token is the access token just saved, under either backend. */
  lemma SaveThenGetCurrentToken(st: Storage, token: TokenResponse, savedAt: int, faults: Faults, now: int)
    requires SaveTokens(st, token, savedAt, faults).err.None?
    requires now <= savedAt + token.expiresIn - ExpiryBufferSeconds
    ensures var st' := SaveTokens(st, token, savedAt, faults).storage;
      && GetCurrentToken(st', now, CleanReads) == TokenReply(token.accessToken, None)
      && GetCurrentTokenAsWritten(st', now, CleanReads) == TokenReply(token.accessToken, None)
  {
    var st' := SaveTokens(st, token, savedAt, faults).storage;
    SavedTokenExpiry(st, token, savedAt, faults, now);
    assert Get(st', AccessTokenKey, None) == Success(token.accessToken);
  }
}

=== FILE: token_poller.dfy ===
/** The device-flow token poller (internal/auth/token_poller.go), after the
    device access token request of RFC 8628 (grant type of section 3.4,
    error codes of section 3.5).

    Time is integer seconds. The poller fixes its deadline once, then loops:
    if the clock is strictly past the deadline it gives up; otherwise it waits
    for the next tick, posts one token request and classifies the reply. The
    environment is a finite sequence of rounds, each carrying the seconds the
    clock advances from one deadline check to the next (the tick wait plus
    the request) and the server's reply.

    Two deviations from RFC 8628 are the source's, and the model keeps them:
    on `slow_down` section 3.5 adds 5 seconds to the interval, the code
    doubles it; and where section 3.2 has a client poll every 5 seconds when
    the response omits `interval`, the code reads the missing field as 0 and
    its ticker panics (`OmittedIntervalPanics`). */
module TokenPoller {
  import opened Wrappers
  import opened AuthErrors
  import TokenManager

  const StatusOK := 200
  const StatusBadRequest := 400

  /** A device authorization response. */
  datatype DeviceCodeResponse = DeviceCodeResponse(
    deviceCode: string,
    userCode: string,
    verificationUri: string,
    verificationUriComplete: string,
    expiresIn: int,
    interval: int)

  /** One reply to a token request. A body answered by the server is decoded
      as a token response when the status is 200 and as `{"error": ...}` when
      it is 400; each decoding is None when the body does not decode so. */
  datatype Reply =
    | RequestNotBuilt
    | TransportFailure
    | Answered(status: int, asToken: Option<TokenManager.TokenResponse>, asError: Option<string>)

  datatype Round = Round(elapsed: nat, reply: Reply)

  /** The loop's state: the clock at the deadline check, the fixed deadline,
      and the current polling interval. */
  datatype PollState = PollState(now: int, deadline: int, interval: int)

  /** What one reply does to the loop. */
  datatype Step = Continue(next: PollState) | Obtained(token: TokenManager.TokenResponse) | Stopped(err: AuthenticationError)

  /** How polling ends, or that it is still waiting when the rounds run out.
      `Panicked` is the ticker's refusal of a non-positive interval. */
  datatype PollOutcome =
    | Granted(token: TokenManager.TokenResponse)
    | PollFailed(err: AuthenticationError)
    | Waiting(state: PollState)
    | Panicked

  /** An outcome together with the number of rounds used: token requests
      attempted, counting one that could not even be built. */
  datatype Polled = Polled(outcome: PollOutcome, polls: nat)

  function PollingError(reason: string): AuthenticationError
  {
    NewTokenPollingError(Some(reason))
  }

  const TimedOut := "tiempo de espera por la autenticación agotado"

  predicate IsPending(reply: Reply)
  {
    reply.Answered? && reply.status == StatusBadRequest && reply.asError == Some("authorization_pending")
  }

  predicate IsSlowDown(reply: Reply)
  {
    reply.Answered? && reply.status == StatusBadRequest && reply.asError == Some("slow_down")
  }

  /** A reply that keeps the loop polling. */
  predicate KeepsWaiting(reply: Reply)
  {
    IsPending(reply) || IsSlowDown(reply)
  }

  /** A reply that hands over a token. */
  predicate Grants(reply: Reply, token: TokenManager.TokenResponse)
  {
    reply.Answered? && reply.status == StatusOK && reply.asToken == Some(token)
  }

  /** The state the loop starts in: the deadline is the start time plus the
      device code's lifetime, the interval is the one the server asked for. */
  function Start(dc: DeviceCodeResponse, start: int): (s: PollState)
    ensures s.deadline - s.now == dc.expiresIn && s.interval == dc.interval
  {
    PollState(start, start + dc.expiresIn, dc.interval)
  }

  /** Classify one reply after the deadline check has passed. */
  function Exchange(s: PollState, round: Round): (r: Step)
    ensures r.Obtained? <==> round.reply.Answered? && round.reply.status == StatusOK && round.reply.asToken.Some?
    ensures r.Obtained? ==> r.token == round.reply.asToken.value
    ensures r.Continue? <==> IsPending(round.reply) || IsSlowDown(round.reply)
    ensures r.Continue? ==>
      && r.next.now == s.now + round.elapsed
      && r.next.deadline == s.deadline
      && r.next.interval == (if IsSlowDown(round.reply) then 2 * s.interval else s.interval)
    ensures r.Stopped? ==> r.err.code == AuthPolling && r.err.cause.Some? && r.err.cause != Some(TimedOut)
  {
    match round.reply
    case RequestNotBuilt => Stopped(PollingError("error creating token request"))
    case TransportFailure => Stopped(PollingError("error requesting token"))
    case Answered(status, asToken, asError) =>
      if status == StatusOK then
        match asToken
        case None => Stopped(PollingError("error decoding token response"))
        case Some(token) => Obtained(token)
      else if status == StatusBadRequest then
        match asError
        case None => Stopped(PollingError("error decoding error response"))
        case Some(code) =>
          if code == "authorization_pending" then
            Continue(s.(now := s.now + round.elapsed))
          else if code == "slow_down" then
            Continue(s.(now := s.now + round.elapsed, interval := s.interval * 2))
          else if code == "expired_token" then
            Stopped(PollingError("el código de autorización ha expirado"))
          else
            Stopped(PollingError("error inesperado recuperando el token"))
      else
        Stopped(PollingError("respuesta inesperada del servidor"))
  }

  /** The polling loop over a finite sequence of rounds. */
  function Run(s: PollState, rounds: seq<Round>): (r: Polled)
    ensures r.polls <= |rounds|
    ensures s.now > s.deadline ==> r == Polled(PollFailed(PollingError(TimedOut)), 0)
    ensures r.outcome.Waiting? ==> r.polls == |rounds| && r.outcome.state.deadline == s.deadline
    ensures r.outcome.PollFailed? ==> r.outcome.err.code == AuthPolling
    ensures !r.outcome.Panicked?
    decreases |rounds|
  {
    if s.now > s.deadline then Polled(PollFailed(PollingError(TimedOut)), 0)
    else if |rounds| == 0 then Polled(Waiting(s), 0)
    else
      match Exchange(s, rounds[0])
      case Continue(next) =>
        var rest := Run(next, rounds[1..]);
        Polled(rest.outcome, rest.polls + 1)
      case Obtained(token) => Polled(Granted(token), 1)
      case Stopped(err) => Polled(PollFailed(err), 1)
  }

  const NanosPerSecond := 1_000_000_000

  /** Two's-complement wrap-around of a 64-bit signed integer. */
  function Wrap64(x: int): (w: int)
    ensures -0x8000_0000_0000_0000 <= w < 0x8000_0000_0000_0000
    ensures -0x8000_0000_0000_0000 <= x < 0x8000_0000_0000_0000 ==> w == x
  {
    (x + 0x8000_0000_0000_0000) % 0x1_0000_0000_0000_0000 - 0x8000_0000_0000_0000
  }

  /** Go's `time.Duration(n) * time.Second`: int64 nanoseconds, wrapping. */
  function SecondsToDuration(n: int): int
  {
    Wrap64(n * NanosPerSecond)
  }

  /** The largest interval, in seconds, whose duration does not wrap. */
  const MaxTickSeconds := 9_223_372_036

  /** The ticker's duration is positive exactly for intervals from 1 to
      `MaxTickSeconds`, among the intervals an int64 can hold whose duration
      does not wrap back to positive; one second more wraps negative. */
  lemma TickerDuration(n: int)
    ensures 0 < n <= MaxTickSeconds ==> SecondsToDuration(n) == n * NanosPerSecond > 0
    ensures -MaxTickSeconds <= n <= 0 ==> SecondsToDuration(n) <= 0
    ensures SecondsToDuration(MaxTickSeconds + 1) < 0
  {}

  /** A device code without `interval` decodes it as 0, and the ticker
      panics instead of polling every 5 seconds as section 3.2 of RFC 8628
      has a client do. */
  lemma OmittedIntervalPanics(dc: DeviceCodeResponse, start: int, rounds: seq<Round>)
    requires dc.interval == 0
    ensures PollForToken(dc, start, rounds) == Polled(Panicked, 0)
  {}

  /** `PollForToken`: a ticker whose duration is not positive — a
      non-positive interval, or one so large that its nanosecond count wraps
      — panics before the first deadline check; otherwise the loop runs from
      `start`. */
  function PollForToken(dc: DeviceCodeResponse, start: int, rounds: seq<Round>): (r: Polled)
    ensures r.outcome.Panicked? <==> SecondsToDuration(dc.interval) <= 0
    ensures r.outcome.Panicked? ==> r.polls == 0
    ensures 0 < dc.interval <= MaxTickSeconds ==> !r.outcome.Panicked?
    ensures r.outcome.PollFailed? ==> r.outcome.err.code == AuthPolling
    ensures r.outcome.Waiting? ==> r.outcome.state.deadline == start + dc.expiresIn
  {
    TickerDuration(dc.interval);
    if SecondsToDuration(dc.interval) <= 0 then Polled(Panicked, 0) else Run(Start(dc, start), rounds)
  }

  /** Every request but the last one sent was answered with pending or
      slow-down; all of them were, when the loop is still waiting or timed
      out. */
  lemma {:induction false} RunWaitsBeforeLast(s: PollState, rounds: seq<Round>)
    ensures var r := Run(s, rounds);
      && (forall i :: 0 <= i < r.polls - 1 ==> KeepsWaiting(rounds[i].reply))
      && (r.outcome.Waiting? || r.outcome == PollFailed(PollingError(TimedOut)) ==>
            forall i :: 0 <= i < r.polls ==> KeepsWaiting(rounds[i].reply))
    decreases |rounds|
  {
    if s.now <= s.deadline && |rounds| > 0 {
      var step := Exchange(s, rounds[0]);
      if step.Continue? {
        RunWaitsBeforeLast(step.next, rounds[1..]);
        assert forall i :: 0 <= i < |rounds| - 1 ==> rounds[1..][i] == rounds[i + 1];
      }
    }
  }

  /** A granted token is the one in the last reply received. */
  lemma {:induction false} RunGrantsLastReply(s: PollState, rounds: seq<Round>)
    ensures var r := Run(s, rounds);
      r.outcome.Granted? ==> 1 <= r.polls <= |rounds| && Grants(rounds[r.polls - 1].reply, r.outcome.token)
    decreases |rounds|
  {
    if s.now <= s.deadline && |rounds| > 0 {
      var step := Exchange(s, rounds[0]);
      if step.Continue? {
        RunGrantsLastReply(step.next, rounds[1..]);
        var k := Run(step.next, rounds[1..]).polls;
        if Run(s, rounds).outcome.Granted? {
          assert rounds[1..][k - 1] == rounds[k];
        }
      }
    }
  }

  /** Every error other than the time-out comes from the last reply received,
      which neither keeps the loop waiting nor carries a decodable token. */
  lemma {:induction false} RunFailsOnLastReply(s: PollState, rounds: seq<Round>)
    ensures var r := Run(s, rounds);
      r.outcome.PollFailed? && r.outcome.err != PollingError(TimedOut) ==>
        && 1 <= r.polls <= |rounds|
        && !KeepsWaiting(rounds[r.polls - 1].reply)
        && !(rounds[r.polls - 1].reply.Answered? && rounds[r.polls - 1].reply.status == StatusOK
             && rounds[r.polls - 1].reply.asToken.Some?)
    decreases |rounds|
  {
    if s.now <= s.deadline && |rounds| > 0 {
      var step := Exchange(s, rounds[0]);
      if step.Continue? {
        RunFailsOnLastReply(step.next, rounds[1..]);
        var k := Run(step.next, rounds[1..]).polls;
        var r := Run(s, rounds);
        if r.outcome.PollFailed? && r.outcome.err != PollingError(TimedOut) {
          assert rounds[1..][k - 1] == rounds[k];
        }
      }
    }
  }

  function Pow2(k: nat): (p: nat)
    ensures p >= 1
  {
    if k == 0 then 1 else 2 * Pow2(k - 1)
  }

  /** The number of `slow_down` replies among the rounds. */
  function SlowDowns(rounds: seq<Round>): nat
  {
    if |rounds| == 0 then 0 else (if IsSlowDown(rounds[0].reply) then 1 else 0) + SlowDowns(rounds[1..])
  }

  /** The seconds the rounds advance the clock in total. */
  function Elapsed(rounds: seq<Round>): nat
  {
    if |rounds| == 0 then 0 else rounds[0].elapsed + Elapsed(rounds[1..])
  }

  /** While polling continues, the deadline stays where it was fixed, the
      clock has advanced by every round's time, and the interval has doubled
      once per `slow_down`: after k of them it is `initial * 2^k`. */
  lemma {:induction false} WaitingState(s: PollState, rounds: seq<Round>)
    requires Run(s, rounds).outcome.Waiting?
    ensures var w := Run(s, rounds).outcome.state;
      && w.deadline == s.deadline
      && w.now == s.now + Elapsed(rounds)
      && w.interval == s.interval * Pow2(SlowDowns(rounds))
    decreases |rounds|
  {
    if |rounds| > 0 {
      var next := Exchange(s, rounds[0]).next;
      WaitingState(next, rounds[1..]);
      var k := SlowDowns(rounds[1..]);
      if IsSlowDown(rounds[0].reply) {
        assert s.interval * 2 * Pow2(k) == s.interval * Pow2(k + 1);
      }
    }
  }

  /** A run of nothing but `slow_down` replies either is still waiting with the
      interval doubled once per reply, or has been stopped by the deadline. */
  lemma {:induction false} SlowDownOnlyIsGeometric(s: PollState, rounds: seq<Round>)
    requires forall i :: 0 <= i < |rounds| ==> IsSlowDown(rounds[i].reply)
    ensures var r := Run(s, rounds).outcome;
      || (r.Waiting? && r.state.interval == s.interval * Pow2(|rounds|))
      || r == PollFailed(PollingError(TimedOut))
    decreases |rounds|
  {
    if s.now <= s.deadline && |rounds| > 0 {
      assert forall i :: 0 <= i < |rounds| - 1 ==> rounds[1..][i] == rounds[i + 1];
      SlowDownOnlyIsGeometric(Exchange(s, rounds[0]).next, rounds[1..]);
    }
    if Run(s, rounds).outcome.Waiting? {
      WaitingState(s, rounds);
      AllSlowDowns(rounds);
    }
  }

  lemma {:induction false} AllSlowDowns(rounds: seq<Round>)
    requires forall i :: 0 <= i < |rounds| ==> IsSlowDown(rounds[i].reply)
    ensures SlowDowns(rounds) == |rounds|
    decreases |rounds|
  {
    if |rounds| > 0 {
      assert forall i :: 0 <= i < |rounds| - 1 ==> rounds[1..][i] == rounds[i + 1];
      AllSlowDowns(rounds[1..]);
    }
  }

  /** A time-out means the clock, advanced by the rounds used, has passed the
      deadline: the loop never gives up early. */
  lemma {:induction false} TimesOutOnlyPastDeadline(s: PollState, rounds: seq<Round>)
    ensures var r := Run(s, rounds);
      r.outcome == PollFailed(PollingError(TimedOut)) ==>
        r.polls <= |rounds| && s.now + Elapsed(rounds[..r.polls]) > s.deadline
    decreases |rounds|
  {
    var r := Run(s, rounds);
    if s.now <= s.deadline && |rounds| > 0 {
      var step := Exchange(s, rounds[0]);
      if step.Continue? {
        TimesOutOnlyPastDeadline(step.next, rounds[1..]);
        var k := Run(step.next, rounds[1..]).polls;
        if r.outcome == PollFailed(PollingError(TimedOut)) {
          assert r.polls == k + 1;
          assert rounds[..k + 1][1..] == rounds[1..][..k];
          assert Elapsed(rounds[..k + 1]) == rounds[0].elapsed + Elapsed(rounds[1..][..k]);
        }
      }
    }
  }

  /** Every request was sent after a deadline check that passed: before the
      i-th request the clock, advanced by the earlier rounds, was not past the
      deadline. */
  lemma {:induction false} RequestsBeforeDeadline(s: PollState, rounds: seq<Round>)
    ensures var r := Run(s, rounds);
      forall i :: 0 <= i < r.polls ==> s.now + Elapsed(rounds[..i]) <= s.deadline
    decreases |rounds|
  {
    var r := Run(s, rounds);
    if s.now <= s.deadline && |rounds| > 0 {
      var step := Exchange(s, rounds[0]);
      if step.Continue? {
        RequestsBeforeDeadline(step.next, rounds[1..]);
        forall i | 0 < i < r.polls
          ensures s.now + Elapsed(rounds[..i]) <= s.deadline
        {
          assert rounds[..i][1..] == rounds[1..][..i - 1];
        }
        assert Elapsed(rounds[..0]) == 0;
      }
      else {
        assert Elapsed(rounds[..0]) == 0;
      }
    }
  }

  /** Every round takes at least `pace` seconds. */
  predicate Paced(rounds: seq<Round>, pace: int)
  {
    forall i :: 0 <= i < |rounds| ==> rounds[i].elapsed >= pace
  }

  /** With every round taking at least `pace` seconds, the requests after the
      first are spread over at least `pace` seconds each, all before the
      deadline: the loop sends at most `(deadline - now) / pace + 1` requests,
      however many rounds the environment offers. */
  lemma {:induction false} PollsBounded(s: PollState, rounds: seq<Round>, pace: nat)
    requires Paced(rounds, pace)
    ensures var n := Run(s, rounds).polls;
      n == 0 || (n - 1) * pace <= s.deadline - s.now
    decreases |rounds|
  {
    if s.now <= s.deadline && |rounds| > 0 {
      var step := Exchange(s, rounds[0]);
      if step.Continue? {
        assert Paced(rounds[1..], pace) by {
          assert forall i :: 0 <= i < |rounds| - 1 ==> rounds[1..][i] == rounds[i + 1];
        }
        PollsBounded(step.next, rounds[1..], pace);
        var k := Run(step.next, rounds[1..]).polls;
        if k > 0 {
          assert (k - 1) * pace + pace == k * pace;
        }
      }
    }
  }

  /** Termination: a loop offered more paced rounds than fit before the
      deadline has ended — with a token or an error — before using them all. */
  lemma PollingEnds(s: PollState, rounds: seq<Round>, pace: nat)
    requires Paced(rounds, pace)
    requires |rounds| > 0 && (|rounds| - 1) * pace > s.deadline - s.now
    ensures !Run(s, rounds).outcome.Waiting?
  {
    PollsBounded(s, rounds, pace);
  }

  /** With every round taking at least the initial interval, `PollForToken`
      sends at most `expiresIn / interval + 1` requests. */
  lemma PollForTokenBounded(dc: DeviceCodeResponse, start: int, rounds: seq<Round>)
    requires dc.interval > 0 && Paced(rounds, dc.interval)
    ensures var n := PollForToken(dc, start, rounds).polls;
      n == 0 || (n - 1) * dc.interval <= dc.expiresIn
  {
    PollsBounded(Start(dc, start), rounds, dc.interval);
  }

  /** A server that only ever answers `authorization_pending` or `slow_down`
      cannot keep the loop alive past the deadline: given enough paced
      rounds, it ends with the time-out error. */
  lemma {:induction false} PendingForeverTimesOut(s: PollState, rounds: seq<Round>, pace: nat)
    requires Paced(rounds, pace)
    requires forall i :: 0 <= i < |rounds| ==> IsPending(rounds[i].reply) || IsSlowDown(rounds[i].reply)
    requires |rounds| > 0 && (|rounds| - 1) * pace > s.deadline - s.now
    ensures Run(s, rounds).outcome == PollFailed(PollingError(TimedOut))
  {
    PollingEnds(s, rounds, pace);
    KeepsPolling(s, rounds);
  }

  /** Under pending and slow-down replies only, the loop is either waiting or
      stopped by the deadline. */
  lemma {:induction false} KeepsPolling(s: PollState, rounds: seq<Round>)
    requires forall i :: 0 <= i < |rounds| ==> IsPending(rounds[i].reply) || IsSlowDown(rounds[i].reply)
    ensures Run(s, rounds).outcome.Waiting? || Run(s, rounds).outcome == PollFailed(PollingError(TimedOut))
    decreases |rounds|
  {
    if s.now <= s.deadline && |rounds| > 0 {
      assert forall i :: 0 <= i < |rounds| - 1 ==> rounds[1..][i] == rounds[i + 1];
      KeepsPolling(Exchange(s, rounds[0]).next, rounds[1..]);
    }
  }

  /** Device code "D1" with interval 1 and lifetime 5; three pending replies,
      then a token on the fourth request, one second per round. */
  lemma PendingThenGrantedScenario(start: int, token: TokenManager.TokenResponse)
    ensures var dc := DeviceCodeResponse("D1", "U1", "https://example.invalid", "https://example.invalid?c=U1", 5, 1);
      var pending := Round(1, Answered(StatusBadRequest, None, Some("authorization_pending")));
      var granted := Round(1, Answered(StatusOK, Some(token), None));
      PollForToken(dc, start, [pending, pending, pending, granted]) == Polled(Granted(token), 4)
  {
    var pending := Round(1, Answered(StatusBadRequest, None, Some("authorization_pending")));
    var granted := Round(1, Answered(StatusOK, Some(token), None));
    var rounds := [pending, pending, pending, granted];
    assert Run(PollState(start + 3, start + 5, 1), rounds[3..]) == Polled(Granted(token), 1);
    assert Run(PollState(start + 2, start + 5, 1), rounds[2..]) == Polled(Granted(token), 2) by {
      assert rounds[2..][1..] == rounds[3..];
    }
    assert Run(PollState(start + 1, start + 5, 1), rounds[1..]) == Polled(Granted(token), 3) by {
      assert rounds[1..][1..] == rounds[2..];
    }
    assert Run(PollState(start, start + 5, 1), rounds) == Polled(Granted(token), 4) by {
      assert rounds[1..] == rounds[1..];
    }
  }

  /** One `slow_down` with initial interval 2 leaves the loop waiting with
      interval 4 and the deadline unchanged. */
  lemma SlowDownScenario(start: int)
    ensures var dc := DeviceCodeResponse("D1", "U1", "https://example.invalid", "https://example.invalid?c=U1", 600, 2);
      var slow := Round(2, Answered(StatusBadRequest, None, Some("slow_down")));
      PollForToken(dc, start, [slow]) == Polled(Waiting(PollState(start + 2, start + 600, 4)), 1)
  {
    var slow := Round(2, Answered(StatusBadRequest, None, Some("slow_down")));
    var s0 := PollState(start, start + 600, 2);
    assert Exchange(s0, slow) == Continue(PollState(start + 2, start + 600, 4));
    assert [slow][1..] == [];
    assert Run(PollState(start + 2, start + 600, 4), []) == Polled(Waiting(PollState(start + 2, start + 600, 4)), 0);
    assert Run(s0, [slow]) == Polled(Waiting(PollState(start + 2, start + 600, 4)), 1);
  }
}

=== FILE: wrappers.dfy ===
/** Failure-carrying datatypes used throughout the model: Go's `(value, error)`
    pairs become `Result`, and nil-able values become `Option`. */
module Wrappers {

  datatype Option<+T> = None | Some(value: T)

  datatype Result<+T, +E> = Success(value: T) | Failure(error: E)
}
